=== FILE: README.md ===
# PlotLab compression-test core in Dafny

PlotLab analyses cyclic compression tests: a rig records force (N),
displacement (mm) and time (s). The analyser then estimates the specimen's
elastic modulus from that recording. This project models the computational
core of that analyser and proves properties of the model:

- **Baseline and truncation.** The current analyser truncates the
  recording at a sustained 20 N crossing for its plots, the peak search
  and `C_stat`, re-zeroing each channel against its first remaining
  sample. The secant estimators of both analysers start from the first
  positive force, re-zero each channel there and derive a sample rate.
- **Geometry.** Area, form factor `width / h`, the shape coefficient `q`,
  the per-sample stress and strain, `translate_units` and the median-window
  clamp.
- **NaN/Inf cleaning.** `interpolate_nans` (a linear, extrapolating
  `interp1d` over the non-NaN samples) and `remove_spikes`.
- **Cycle structure.**
  - Trough snapping to the first rising gradient.
  - The per-cycle slices between lower peaks.
  - The cap of five loading cycles.
  - The threshold-run scanner `find_loading_starts`.
- **Windowed secant estimator.** Both versions are modelled: the current
  one (`process_data_`) and the older script (`process_data` and
  `plot_results`). Each chooses a cycle, splits it into two-second windows
  and takes a two-point secant per window. Then comes the post-processing,
  in source order: zero, warm-up drop, half-select, shift and scale.
- **Read-outs.** `find_nearest` and `find_coordinat`.
- **Static modulus `C_stat`.** The 625 N and 8750 N sustained crossings of
  each loading branch, and the secant between them.
- **Report strings.** `transform_date` and `number_protocol`.

Values are exact reals. A sample that can be non-finite is a
`Sample = Fin(v) | NaN | PosInf | NegInf` with IEEE-like arithmetic. Python
exceptions become `Result` errors. Peak indices from scipy's `find_peaks`
are inputs, assumed strictly increasing where the source relies on it.

Modules, one per component:
- `Wrappers`
- `Numerics`: samples, slicing, shift, scale, min, ceil.
- `Helpers`
- `Geometry`
- `Baseline`
- `Cycles`
- `Secant`
- `Lookup`
- `StaticModulus`
- `Protocol`

Behaviour of the code that the model keeps, although a reader might expect
otherwise:
- The current analyser computes a cycle index and then overrides it with 1
  (views/main_window.py:682), so the analysed cycle is always the one
  between the first two peaks.
- The current analyser re-zeroes `Eps1` and shifts `Pr` to minimum zero
  only when more than two entries remain (views/main_window.py:725-730).
- `C_stat` measures each cycle from `lower_p[io]` to the upper peak
  `upper_p[io]` (views/main_window.py:1250-1251), not between consecutive
  lower peaks.
- `C_stat` searches crossings only in `1 .. len - 6` (views/main_window.py:1256, 1270). A cycle without a
  crossing is not reported on its own: formatting the result then fails,
  and only `PermissionError` is caught, so the whole computation fails.
- A zero height raises in `width / h`; a zero area does not raise and only
  yields non-finite stress.
- `interpolate_nans` masks only NaN, so an infinity is an interpolation node
  and survives (see Findings).
- The lower-peak array is built from `np.array([])`, which is float64, so
  when no trough snaps it is the float `[0.]`, which numpy refuses as a
  slice bound (see Findings).

## Model

| member | source | states |
|---|---|---|
| Baseline.FirstSustained | views/main_window.py:1146-1150 | the result is the least index in the range whose force exceeds the threshold for it and the next four samples (clipped at the end); none exists exactly when no index in the range qualifies |
| Baseline.TruncationStart | views/main_window.py:1144-1150 | the truncation start is the first `i >= 1` with a sustained crossing of 20 N, and 0 when there is none; no earlier candidate qualifies |
| Baseline.Truncate | views/main_window.py:1152-1160 | fails exactly on an empty table; otherwise the three channels keep one length `len - start`, all start at 0, and entry `i` is the input at `start + i` minus the input at `start` |
| Baseline.RebaseRoundTrip | views/main_window.py:1158-1160 | adding the subtracted first sample back restores the kept part of the series exactly |
| Baseline.FirstPositive | views/main_window.py:659 | `np.argmax(F > 0)`: every earlier force is non-positive; a non-positive result entry happens only when no force is positive and the index is 0 |
| Baseline.PositiveBaseline | 111.py:45-47 | fails exactly on an empty table; the table is rebased at the first positive force, and the sample rate is the row count over the last elapsed time |
| Baseline.SampleRate | 111.py:47 | rate times elapsed time is the row count; a zero elapsed time gives the fallback rate 10 |
| Geometry.FormFactor | models/data_processor.py:39 | fails exactly when the height is zero; the form factor times the height is the width |
| Geometry.ShapeCoefficient | 111.py:20-21 | `q` times the lateral surface is the loaded area; zero division exactly when the lateral surface vanishes |
| Geometry.MapStressStrain | models/data_processor.py:47-55 | fails exactly for a zero height; stress and strain are index-aligned with the input, `strain[i] * h == displacement[i]` and `stress[i]` is the force over the area in mm² |
| Geometry.PascalToMegapascal | views/main_window.py:1168-1176 | dividing by the area in m² and scaling by 1e-6 equals dividing by the area in mm² |
| Geometry.StressRecoversForce | models/data_processor.py:53 | for a non-zero area every stress is finite and stress times area recovers the force |
| Geometry.ProcessData | models/data_processor.py:37-72 | the validity mask is never applied: stress, strain and time keep the input length and time is returned unchanged; it fails on a zero height, and otherwise fails exactly when there are fewer than two rows, fewer than two non-NaN stresses or fewer than two non-NaN entries in the gradient modulus |
| Geometry.ProcessDataExact | models/data_processor.py:58-72 | with at least two rows, a non-degenerate geometry and a gradient modulus with two non-NaN entries, processing succeeds and the interpolation changes nothing: stress is force over area and strain is displacement over height, exactly |
| Geometry.ModulusStep | models/data_processor.py:68-72 | interpolating the gradient modulus fails exactly when fewer than two of its entries are not NaN, and otherwise keeps its length |
| Geometry.AllNaNModulusFails | views/main_window.py:1189-1193 | a gradient modulus that is NaN everywhere, as for two identical rows (0/0), makes the interpolation fail |
| Geometry.DegenerateModulusStops | models/data_processor.py:37-72 | with a non-zero height, an all-NaN gradient modulus makes the whole of `process_data` fail |
| Geometry.TranslateUnits | models/data_processor.py:114-115 | the length is kept and every element is multiplied by the unit factor |
| Geometry.MedianWindow | models/data_processor.py:74 | the window never exceeds the configured size, is at least 1 when the size is, and is capped by a quarter of the length (by 1 below four samples) |
| Cycles.Gradient | views/main_window.py:803 | `np.gradient` with unit spacing: one-sided differences at both ends, half the central difference inside |
| Cycles.FirstRise | views/main_window.py:803-805 | the snapped index is the least `p >= t` with a positive gradient; none exactly when no such `p` exists |
| Cycles.SnapPointRises | views/main_window.py:802-805 | at the snapped point the series rises (the next sample exceeds the previous one inside, the neighbour at either end), and it does not rise across any skipped point |
| Cycles.FirstRiseMonotone | models/data_processor.py:99-103 | a later trough never snaps to an earlier rise |
| Cycles.Risen | views/main_window.py:800-805 | the positions of exactly the troughs that have a rise, in trough order, with none missing and none without a rise |
| Cycles.NoneRisen | views/main_window.py:804-805 | when no trough has a rise, no trough is kept |
| Cycles.SnapAll | views/main_window.py:800-805 | one entry per trough that has a rise, in trough order, each that trough's first rise; troughs without a rise are dropped |
| Cycles.SnapAllOrdered | views/main_window.py:800-806 | non-decreasing troughs snap to a non-decreasing list |
| Cycles.SnapTroughs | views/main_window.py:800-807 | the result starts with the inserted 0 and then holds, in order, the first rise of each trough that has one; the array is integral exactly when some trough snapped (otherwise the float `[0.]`); the gradient fails on fewer than two samples only when there is a trough |
| Cycles.SnapTroughsOrdered | models/data_processor.py:98-106 | for strictly increasing troughs the boundary list with its leading 0 is non-decreasing |
| Cycles.NoSnappedTroughBreaksCycles | views/main_window.py:800-807 | as written, when no trough has a rise the boundary array is the float `[0.]`, and with a force peak either cycle plot of one upper peak fails on it, where the integer `[0]` gives the whole series as the one cycle |
| Cycles.LoadingCycles | views/main_window.py:1206-1214 | the kept peaks are the first `min(5, k)` peaks, in order |
| Cycles.CycleSlices | views/main_window.py:1010-1028 | one slice per upper peak, cycle `c` from lower peak `c` to the next (the last to the end); fails exactly when a lower peak is missing |
| Cycles.PaletteSize | views/main_window.py:912-916 | `plot_overview` has `min(k + 2, 8)` colours (eight base colours cut at `min(k + 2, 10)`) and `plot_w` `min(k + 1, 8)`, for `k` force peaks |
| Cycles.CycleStep | views/main_window.py:1010-1036 | one iteration of a cycle loop: when it succeeds the boundaries are integral, the palette has a colour for it and its lower peak exists, and its slice is that cycle of `CycleSlices`; in `plot_w` the slice is non-empty and starts at the lower peak's sample; conversely it succeeds whenever every lower peak is present, the boundaries are integral, there is a colour and (in `plot_w`) the cycle is non-empty |
| Cycles.PlotLoop | views/main_window.py:1008-1036 | the loop draws all its iterations exactly when each succeeds, cycle `c` being iteration `c + 1`'s slice; otherwise it fails with the error of the first iteration that fails |
| Cycles.StepsAgree | views/main_window.py:946-964 | every iteration succeeds exactly when no lower peak is missing, the boundaries are integral, the palette covers every cycle and (for `plot_w`) no cycle is empty; each iteration's slice is then its `CycleSlices` cycle |
| Cycles.PlotCycles | views/main_window.py:909-964 | without a force peak the plots return before drawing; otherwise they draw every cycle exactly when no lower peak is missing, the boundary array is integral, the palette has a colour per cycle and, for `plot_w`, no cycle is empty, and the cycles drawn are those of the cycle slicing |
| Cycles.PaletteRunsOut | views/main_window.py:1033 | with a force peak, all lower peaks present and integral boundaries, more cycles than colours fail on the palette once the coloured cycles are drawn |
| Cycles.SevenCyclesOverrunTabs | views/main_window.py:986-989 | with the force peaks capped at five, `plot_w` has six colours and fails on a seventh cycle |
| Cycles.ClosedCycleSlices | views/main_window.py:1030-1036 | the intended `plot_w` slicing: closing the loop with `x[0]` succeeds exactly when every lower peak is present and no cycle is empty, and then each cycle starts at its lower peak's sample |
| Cycles.FlattenBetween | views/main_window.py:1020-1028 | the slices between consecutive ordered boundaries concatenate to the slice between the outer boundaries |
| Cycles.CyclesBetween | views/main_window.py:1020-1028 | cycle `c` is the slice between boundary `c` and boundary `c + 1`, the last boundary being the end of the series |
| Cycles.CyclesPartitionSeries | views/main_window.py:943-964 | for ordered lower peaks the cycles partition the series from the first lower peak to its end: nothing lost, nothing repeated |
| Cycles.FindLoadingStarts | views/main_window.py:740-765 | every start is above the threshold; consecutive starts are at least `1 + min_interval` apart; nothing before the first start is above; no start at all exactly when nothing is above the threshold |
| Cycles.SkipBelow | views/main_window.py:750-751 | the scan stops at the first above-threshold sample from its starting point, or at the end |
| Cycles.SkipRun | views/main_window.py:760-761 | the scan stops exactly at the end of the above-threshold run |
| Cycles.ScanComplete | views/main_window.py:747-765 | a finished scan's starts are above the threshold, spaced by at least `1 + min_interval`, with nothing above before the first, and empty exactly when nothing is above |
| Cycles.StartsSpaced | views/main_window.py:759-764 | consecutive starts differ by at least the run length and the minimum interval, so by at least `1 + min_interval` |
| Secant.CycleIndex | views/main_window.py:676-682 | the current analyser always uses cycle 1; the older script uses 3 with at least four peaks, else 2 |
| Secant.WindowWidth | views/main_window.py:694 | `ceil(2*sr)` now and `2*ceil(sr)` in the older script, each pinned by its ceiling bounds |
| Secant.WindowWidthPositive | 111.py:77 | both widths are positive for a positive sample rate |
| Secant.CycleSlice | views/main_window.py:684-692 | the cycle slice has length `peaks[ci] - peaks[ci-1]`, runs from the sample after the previous peak and ends at the chosen peak |
| Secant.CurrentCycleLength | views/main_window.py:682-692 | the current analyser analyses `F[peaks[0]+1 .. peaks[1]]` inclusive |
| Secant.WindowBounds | views/main_window.py:704-708 | every window lies in the slice, the end clamp never fires, and window `i` ends just before window `i+1` starts |
| Secant.Windows | views/main_window.py:695-714 | `len(F1) // w` windows, with `Pr`, `E1` and `Eps1` aligned; the value of each entry is stated by `Secant.WindowEntry` |
| Secant.WindowsOrdered | views/main_window.py:704-706 | a later window starts and ends no earlier than an earlier one |
| Secant.WindowEntry | views/main_window.py:704-714 | entry `i` of the three arrays is window `i`'s two-point `Pr`, `E1` and `Eps1` |
| Secant.ZeroStiffnessWindow | views/main_window.py:711-713 | a window whose displacement does not move keeps `E1 = 0` |
| Secant.LinearRampModulus | views/main_window.py:709-713 | when a moving window's two end samples lie on a ramp `F = c*S`, its `E1 = c*h*1e-6/area` |
| Secant.WindowPrOrdered | views/main_window.py:709 | with non-decreasing force and a positive area `Pr` is non-decreasing over the windows |
| Secant.ZeroFirst | views/main_window.py:716-717 | after zeroing `Pr[0] = 0` and every entry is relative to the first |
| Secant.KeepSecondHalf | views/main_window.py:719-723 | after the warm-up drop and the half cut, `m - m/2` entries remain (`m = max(n-3, 0)`), entry `i` taken from index `3 + m/2 + i` |
| Secant.KeptHalf | views/main_window.py:719-723 | past the warm-up at least one entry is kept and at most half, rounded up |
| Secant.Finish | views/main_window.py:725-737 | entry `i` is `Pr` shifted by its minimum (more than two entries) and scaled by 1e6, `E1` scaled by 1e6, `Eps1` re-zeroed (more than two entries) in percent |
| Secant.FinishNormalised | views/main_window.py:725-728 | with more than two entries pressure has minimum 0 and is never negative, and strain starts at 0 |
| Secant.ShiftedToMinimum | 111.py:179-181 | shifting by the minimum leaves a non-negative series that touches 0 |
| Secant.CurrentPost | views/main_window.py:716-737 | the reported arrays are aligned and have the kept length |
| Secant.CurrentPostModulus | views/main_window.py:720-735 | the reported modulus is the kept window's modulus times 1e6, never shifted |
| Secant.CurrentPostEntry | views/main_window.py:716-737 | each reported pressure and strain is its kept window's value, zeroed, shifted and scaled |
| Secant.CurrentPostShape | views/main_window.py:716-737 | differences between reported pressures and strains are the kept windows' differences, scaled |
| Secant.CurrentPostNormalised | views/main_window.py:725-728 | with more than two kept entries reported pressure has minimum 0 and reported strain starts at 0 |
| Secant.CurrentPostShort | views/main_window.py:729-737 | with at most two kept entries pressure stays relative to the first window and strain is absolute |
| Secant.PlotScaled | 111.py:172-177 | the pressure before the shift is the second half, re-zeroed against the first entry and scaled by 1e6 |
| Secant.PlotResults | 111.py:170-193 | fails exactly on no windows; all three arrays are cut at `len/2`; `E1` is unscaled and `Eps1` is in percent, not re-zeroed |
| Secant.PlotResultsShape | 111.py:172-181 | the plotted pressure keeps the shape of the second half, scaled by 1e6 |
| Secant.PlotResultsFloor | 111.py:179-181 | the plotted pressure has minimum 0 and is never negative |
| Secant.LegacyInput | 111.py:99-102 | what the older script hands on: `Pr` zeroed against the first window, all arrays from window 3 on |
| Secant.LegacyPost | 111.py:99-102 | the older post-processing fails exactly with three windows or fewer; otherwise it has the kept length, and entry `i` holds window `3 + m/2 + i`'s `E1` unscaled and its `Eps1` in percent |
| Secant.LegacyPostShape | 111.py:99-102 | both re-zeroings of `Pr` cancel: reported pressure differences are the kept windows' differences, scaled by 1e6 |
| Secant.LegacyPostFloor | 111.py:179-181 | the older script reports pressure with minimum 0, never negative |
| Secant.CycleWindows | 111.py:64-96 | the analysed cycle yields `(peaks[ci] - peaks[ci-1]) // w` aligned windows |
| Secant.Estimate | views/main_window.py:669-737 | fewer than three peaks fail; a non-positive width fails; with a positive sample rate the current analyser always succeeds; otherwise the result is the variant's post-processing (current or older) of the analysed cycle's windows |
| Secant.EstimateWindowCount | 111.py:64-102 | past the peak and width checks only the older script fails, exactly when at most three windows fit into the analysed cycle, and the reported arrays have the kept length of that window count |
| Lookup.ArgMin | 111.py:209 | `argmin` returns the first index holding the minimum |
| Lookup.FindNearest | 111.py:208-210 | the read-out is the earliest row whose strain in percent is closest to the target; none exactly on no rows |
| Lookup.FindNearestExact | 111.py:208-210 | when some row hits the target exactly, the read-out strain is the target |
| Lookup.FirstClose | views/main_window.py:514-516 | the first row within one unit of the target, and none exactly when no row is |
| Lookup.Locate | views/main_window.py:513-520 | the first target in list order with a close row, and that target's first close row |
| Lookup.FindCoordinate | views/main_window.py:512-520 | `None` exactly when no target has a close row; otherwise the `(stress, strain)` pair of the first row close to the first target, in list order, that has any close row |
| Lookup.LocateIsFirstHit | views/main_window.py:514-520 | the chosen pair is exactly the first target with a close row and that target's first close row |
| Lookup.FindCoordinatePriority | views/main_window.py:514-520 | when the first target has a close row, the answer is its first close row, whatever later targets are |
| StaticModulus.Crossing | views/main_window.py:1253-1257 | the first `i` in `1 .. len-6` whose five samples all exceed the threshold; none exactly when none does |
| StaticModulus.CrossingsOrdered | views/main_window.py:1253-1271 | a branch that crosses 8750 N crosses 625 N no later |
| StaticModulus.BranchModulusPositive | views/main_window.py:1273 | with non-decreasing displacement and a positive area the secant is positive, or infinite when displacement did not move |
| StaticModulus.Branches | views/main_window.py:1248-1250 | one branch result per cycle with a trough, from the cycle's trough to its upper peak |
| StaticModulus.Collect | views/main_window.py:1248-1278 | the loop succeeds exactly when every cycle from `io` on has a branch result, returning them in order; a missing crossing is reported for the first cycle without one |
| StaticModulus.StaticModuli | views/main_window.py:1248-1278 | one result per upper peak in order, each the branch secant; fails exactly when some cycle is not measured, naming the first such cycle |
| StaticModulus.CollectMeasured | views/main_window.py:1248-1278 | the loop succeeds exactly when every cycle is measured |
| StaticModulus.StaticModuliAsWritten | views/main_window.py:1239-1241 | as written the loop runs on `[0] + peaks_lower`; with an upper peak a float `[0.]` boundary array fails as a slice bound |
| StaticModulus.AsWrittenRepeatsFirstCycle | views/main_window.py:1239-1250 | as written, whenever it succeeds, cycle 2 reports the same value as cycle 1 |
| StaticModulus.LongerBranch | views/main_window.py:1249-1273 | a measured branch from sample 0 keeps its value when extended |
| StaticModulus.PrefixCrossing | views/main_window.py:1253-1257 | a crossing found in a prefix is the crossing of the longer series |
| StaticModulus.BranchWithinCycle | views/main_window.py:1249-1250 | cycle `c`'s branch is a prefix of the cycle the overview plots |
| Helpers.Nodes | utils/helpers.py:6-8 | the node indices are strictly increasing and each selects a sample the mask keeps |
| Helpers.NodePosition | utils/helpers.py:6-8 | every kept sample appears in the node list |
| Helpers.InterpolateWith | utils/helpers.py:4-9 | fails exactly with fewer than two nodes; otherwise the length is kept |
| Helpers.InterpolateFillsGap | utils/helpers.py:8-9 | a gap between two consecutive finite nodes is filled from the straight line through them |
| Helpers.InterpolateExtrapolatesFront | utils/helpers.py:8-9 | before the first node the value comes from the line through the first two nodes |
| Helpers.InterpolateExtrapolatesBack | utils/helpers.py:8-9 | after the last node the value comes from the line through the last two nodes |
| Helpers.InterpolateKeepsNodes | utils/helpers.py:6-9 | with finite nodes every node keeps its value |
| Helpers.InterpolateAllFinite | utils/helpers.py:6-9 | with finite nodes the result has no NaN and no infinity |
| Helpers.InterpolateUnchanged | utils/helpers.py:4-9 | finite samples that are all nodes come back unchanged |
| Helpers.InterpolateNonFiniteCleans | utils/helpers.py:4-9 | the corrected interpolation leaves nothing non-finite and keeps every finite sample |
| Helpers.InterpolateNans | utils/helpers.py:4-9 | `interpolate_nans` as written: fails exactly when fewer than two samples are not NaN, keeps the length, and on a series without infinities equals the interpolation over the finite samples |
| Helpers.InterpolateNansKeepsInfinity | utils/helpers.py:6-8 | as written `[0, inf, 1]` becomes `[NaN, inf, NaN]`: the infinity is kept and both finite neighbours turn into NaN |
| Helpers.RemoveSpikes | utils/helpers.py:11-22 | the returned copy replaces exactly the infinities by NaN and keeps every other entry; it fails when nothing is finite |
| Helpers.RemoveSpikesThenInterpolate | utils/helpers.py:13-21 | removing spikes and then interpolating NaNs is the corrected interpolation |
| Helpers.NodesAgree | utils/helpers.py:14-16 | after `remove_spikes` the NaN mask selects exactly the finite samples of the input |
| Protocol.Split | models/report_generator.py:13 | `split('-')` yields separator-free pieces that join back to the input |
| Protocol.SplitJoin | models/report_generator.py:13 | splitting a join of separator-free pieces returns the pieces |
| Protocol.Fields | models/report_generator.py:13 | unpacking fails exactly when there are not three pieces; the three fields join back to the date |
| Protocol.ParseInt | models/report_generator.py:14 | `int()` accepts exactly the optionally `+`-signed digit strings |
| Protocol.MonthName | models/report_generator.py:11-14 | Python indexing `months[m - 1]`: valid for `-11 <= m <= 12`, a non-positive `m` counting from the end |
| Protocol.TransformDate | models/report_generator.py:10-14 | `«D» <month> Y` with day and year copied; the three failures in the order Python meets them |
| Protocol.TransformIsoDate | models/report_generator.py:8-14 | for every `strftime` date with a four-digit year and month 1..12 the line names the right genitive month |
| Protocol.MonthZeroIsDecember | models/report_generator.py:14 | month `00` does not fail but names December |
| Protocol.NumberProtocol | views/main_window.py:584-589 | fails exactly when the date does not have three fields; otherwise the number splits at `-` into the template word (`ДС` for the DS template, none for the plain one), `0` + month text, year and an empty tail |
| Protocol.NumberProtocolPieces | models/report_generator.py:16-18 | the number's pieces are the template word, `0` + month text, year and an empty tail |
| Protocol.NumberIsoDate | models/report_generator.py:8-18 | for every `strftime` date with a four-digit year the number is `ДС-0MM-YYYY-` |
| Protocol.Pad2 | models/report_generator.py:8 | a two-digit zero-padded field reads back as its value |

## Left out

- User interface, plotting, Excel/Word/CSV input and output, and `os.startfile`: I/O outside the computation.
- scipy `find_peaks`: peak indices are inputs, strictly increasing where the code relies on it.
- `median_filter` and `gaussian_filter1d`: foreign numerics. Only the median-window clamp is modelled.
- The continuous modulus `np.gradient(stress, strain)` with non-uniform spacing: foreign numerics, so its result is a parameter of `Geometry.ProcessData`. Its interpolation failing aborts processing (modelled); its values feed only the plots and the median filter.
- The `np.trapezoid` loop area: foreign numerics used for plots only.
- IEEE rounding and signed zeros: values are exact reals.
- Years below 1000 in the report date: `strftime('%Y')` pads them differently across C libraries, so the date lemmas assume a four-digit year.
- Non-finite recorded values: the recorded force, displacement and time columns are taken to be finite. `load_data` casts with `astype(float)` (views/main_window.py:380-385), so a blank cell would become NaN and could change the truncation point, the `argmax`, the secant windows and the `C_stat` crossings. Infinities and NaN are modelled only from the computations that produce them (division by a zero area, `np.gradient`, interpolation).
- The axis setup of `plot_overview` (`np.max(Disp)`, `math.ceil`, `self.locs[0]`; views/main_window.py:917-932): plotting only. `np.max` of an empty displacement would raise before the cycle loop.
- The zero-crossing and local-minimum union `peaks_lower_` (views/main_window.py:790-794): computed but never used by the core.
- Secant.Estimate: requires a non-zero area and height. A zero height has already raised in the form factor. A zero area only fills the arrays with non-finite values, which this part of the model does not track.
- Secant.Windows: `Pr`, `E1` and `Eps1` are exact reals. The non-finite values a zero area would produce are not modelled.
- Cycles.FindLoadingStarts: requires `min_interval >= 0`. A negative interval makes the source revisit the same run forever.
- Protocol.ParseInt: accepts only an optional `+` and ASCII digits. Whitespace, underscores and non-ASCII digits, which Python's `int()` also accepts, are left out.
- StaticModulus.StaticModuli: for `|lower| < |upper|` the contract states only that the result is an error, not which one. When a crossing is missing the source raises a `TypeError` while formatting. Both are plain errors here.
- The `list_max` slice and the dead `max(list_max)` in `C_stat`: the value is overridden by the constant 8750. Only the index error of the slice is kept, as `MissingLowerPeak`.
- The `PermissionError` handler in `C_stat`: it concerns file output only.
- The peak markers drawn on the strain and stress plots (views/main_window.py:826-846): they belong to the plotting interface and compute nothing.
- The older script's `Defl` and `V` (111.py:58-59) and the plot helpers `plot_loading_*`: they feed only plots.

## Findings

| source | as written | input that shows it | evidently intended | confidence | as-written member | corrected member |
|---|---|---|---|---|---|---|
| utils/helpers.py:6-9 | only NaN is masked, so an infinity is an interpolation node; it survives, and `slope*(x-lo) + y` next to it gives `inf * 0 = NaN` before it and `-inf + inf = NaN` after it | `[0, inf, 1]`: the result is `[NaN, inf, NaN]` | every non-finite value is replaced by interpolation between finite neighbours, so the output is finite | medium, not executed | Helpers.InterpolateNans | utils/helpers.py:4-9 | `interpolate_nans` as written: fails exactly when fewer than two samples are not NaN, keeps the length, and on a series without infinities equals the interpolation over the finite samples |
| Helpers.InterpolateNansKeepsInfinity | Helpers.InterpolateNonFiniteCleans |
| views/main_window.py:1239-1250 | `C_stat` inserts 0 in front of `peaks_lower`, which already starts with the 0 inserted at views/main_window.py:807, so cycle `io >= 1` is measured from the previous cycle's trough | `peaks_lower = [0, 40]`, `peaks_upper = [20, 60]`, force above 8750 N for five samples on both ramps: cycle 2 is measured on `[0, 60)` and repeats cycle 1's crossings and value | cycle `io` is measured from its own trough `peaks_lower[io]` to its peak `peaks_upper[io]` | medium, not executed | StaticModulus.AsWrittenRepeatsFirstCycle | StaticModulus.StaticModuli |
| views/main_window.py:799-807 | the adjusted lower peaks are collected in a list and turned into an array by `np.array(adjusted_peaks)`; when no trough has a rising gradient the list is empty, the array is float64, and inserting 0 gives the float `[0.]`, which the cycle slicing (views/main_window.py:956, 1019-1021) and `C_stat` (views/main_window.py:1250) refuse as a slice bound; the plots reach the slicing only when there is at least one force peak (views/main_window.py:909-911, 981-983), while `C_stat` fails regardless | a strain that rises to one prominent peak and falls back, so `find_peaks` reports one upper peak and no trough: the boundary array is `[0.]` and slicing the one cycle fails (the same happens when every trough is followed only by a non-rising gradient) | the boundary array is the integer `[0]`, so the whole series is the one cycle | medium, not executed | Cycles.NoSnappedTroughBreaksCycles | Cycles.CycleSlices |
| views/main_window.py:985-989, 1033 | `plot_w` takes its colours from `base_colors[:min(len(locs) + 1, 8)]` with `locs` capped at five force peaks, so it has at most six colours, yet it indexes `colors[i-1]` for every strain cycle (`plot_overview` likewise has at most seven) | a recording with at least five force peaks whose strain has seven upper peaks and seven lower peaks, no cycle empty: the seventh cycle of `plot_w` raises `IndexError` at `colors[6]` | one colour per drawn cycle, so every strain cycle is drawn | medium, not executed | Cycles.SevenCyclesOverrunTabs | Cycles.ClosedCycleSlices |

=== FILE: baseline.dfy ===
/**
 * Baseline handling of a recording: the sustained-threshold truncation of
 * the current analyser, the "first positive force" baseline of the older
 * one, re-zeroing, and the sample rate derived from the elapsed time.
 */
module Baseline {
  import opened Numerics
  import opened Wrappers

  /** Parallel channels of the input table: force (N), displacement (mm), elapsed time (s). */
  datatype Recording = Recording(force: seq<real>, displacement: seq<real>, time: seq<real>) {
    predicate Aligned() { |force| == |displacement| == |time| }
    function Length(): nat { |force| }
  }

  /** Number of consecutive samples the sustained-threshold rule inspects. */
  const SustainSamples: nat := 5

  /** Load threshold (N) before which the current analyser discards samples. */
  const TruncationThreshold: real := 20.0

  /** `xs[i] > thr and np.all(xs[i:i+5] > thr)`: the slice is clipped at the end of the series. */
  predicate Sustained(xs: seq<real>, i: nat, thr: real)
    requires i < |xs|
  {
    xs[i] > thr && forall j :: i <= j < i + SustainSamples && j < |xs| ==> xs[j] > thr
  }

  /** The first `i` in `[lo, hi)` where the threshold is exceeded and sustained. */
  function FirstSustained(xs: seq<real>, thr: real, lo: nat, hi: int): (r: Option<nat>)
    requires hi <= |xs|
    ensures r.Some? ==> lo <= r.value < hi && Sustained(xs, r.value, thr)
    ensures r.Some? ==> forall j :: lo <= j < r.value ==> !Sustained(xs, j, thr)
    ensures r.None? ==> forall j :: lo <= j < hi ==> !Sustained(xs, j, thr)
    decreases hi - lo
  {
    if hi <= lo then None
    else if Sustained(xs, lo, thr) then Some(lo)
    else FirstSustained(xs, thr, lo + 1, hi)
  }

  /**
   * `subtract the first sample`: the series from index `k` on, shifted so
   * that it starts at zero.
   */
  function Rebase(xs: seq<real>, k: nat): (r: seq<real>)
    requires k < |xs|
    ensures |r| == |xs| - k
    ensures r[0] == 0.0
    ensures forall i :: 0 <= i < |r| ==> r[i] == xs[k + i] - xs[k]
  {
    Shift(xs[k..], xs[k])
  }

  /** Adding the removed offset back restores the discarded-prefix series exactly. */
  lemma {:induction false} RebaseRoundTrip(xs: seq<real>, k: nat)
    requires k < |xs|
    ensures Shift(Rebase(xs, k), -xs[k]) == xs[k..]
  {
    var r := Shift(Rebase(xs, k), -xs[k]);
    forall i | 0 <= i < |r|
      ensures r[i] == xs[k..][i]
    {
    }
  }

  function RebaseAll(rec: Recording, k: nat): (r: Recording)
    requires rec.Aligned() && k < rec.Length()
    ensures r.Aligned() && r.Length() == rec.Length() - k
    ensures r.force[0] == 0.0 && r.displacement[0] == 0.0 && r.time[0] == 0.0
    ensures forall i :: 0 <= i < r.Length() ==>
        && r.force[i] == rec.force[k + i] - rec.force[k]
        && r.displacement[i] == rec.displacement[k + i] - rec.displacement[k]
        && r.time[i] == rec.time[k + i] - rec.time[k]
  {
    Recording(Rebase(rec.force, k), Rebase(rec.displacement, k), Rebase(rec.time, k))
  }

  /**
   * The truncation start of `process_data`: the first `i >= 1` whose force
   * exceeds 20 N for that sample and the (clipped) next four, or 0.
   */
  function TruncationStart(force: seq<real>): (s: nat)
    ensures |force| > 0 ==> s < |force|
    ensures s > 0 ==> s < |force| && Sustained(force, s, TruncationThreshold)
    ensures forall j :: 1 <= j < s ==> !Sustained(force, j, TruncationThreshold)
    ensures s == 0 ==> forall j :: 1 <= j < |force| ==> !Sustained(force, j, TruncationThreshold)
  {
    match FirstSustained(force, TruncationThreshold, 1, |force|)
    case Some(i) => i
    case None => 0
  }

  datatype BaselineError = EmptyRecording   // indexing `[0]` of an empty array

  /**
   * `process_data` truncation: all three channels cut at the truncation
   * start and re-zeroed against their own first remaining sample.
   */
  function Truncate(rec: Recording): (r: Result<Recording, BaselineError>)
    requires rec.Aligned()
    ensures r.Err? <==> rec.Length() == 0
    ensures r.Ok? ==> r.value.Aligned()
    ensures r.Ok? ==> r.value.Length() == rec.Length() - TruncationStart(rec.force)
    ensures r.Ok? ==> r.value.force[0] == 0.0 && r.value.displacement[0] == 0.0 && r.value.time[0] == 0.0
    ensures r.Ok? ==> var s := TruncationStart(rec.force);
      forall i :: 0 <= i < r.value.Length() ==>
        && r.value.force[i] == rec.force[s + i] - rec.force[s]
        && r.value.displacement[i] == rec.displacement[s + i] - rec.displacement[s]
        && r.value.time[i] == rec.time[s + i] - rec.time[s]
  {
    if rec.Length() == 0 then Err(EmptyRecording)
    else Ok(RebaseAll(rec, TruncationStart(rec.force)))
  }

  /** The first index at or after `i` with positive force, or the length when there is none. */
  function PositiveFrom(force: seq<real>, i: nat): (k: nat)
    requires i <= |force|
    ensures i <= k <= |force|
    ensures k < |force| ==> force[k] > 0.0
    ensures forall j :: i <= j < k ==> force[j] <= 0.0
    decreases |force| - i
  {
    if i == |force| || force[i] > 0.0 then i else PositiveFrom(force, i + 1)
  }

  /** `np.argmax(force > 0)`: the first index with positive force, or 0 when there is none. */
  function FirstPositive(force: seq<real>): (k: nat)
    ensures k == 0 || k < |force|
    ensures |force| > 0 ==> k < |force|
    ensures forall j :: 0 <= j < k ==> force[j] <= 0.0
    ensures k < |force| && force[k] <= 0.0 ==> k == 0 && forall j :: 0 <= j < |force| ==> force[j] <= 0.0
  {
    var k := PositiveFrom(force, 0);
    if k == |force| then 0 else k
  }

  /** Fallback sample rate when the recorded elapsed time is zero. */
  const DefaultSampleRate: real := 10.0

  /** The baseline-corrected table of the windowed estimator, with its sample rate. */
  datatype Based = Based(rec: Recording, sampleRate: real)

  /**
   * `M = df[k:, :4] - df[k, :4]` from the first positive force, and
   * `sr = len(M) / M[-1, 3]`, or 10 when that elapsed time is zero.
   * An empty table makes `np.argmax` raise.
   */
  function PositiveBaseline(rec: Recording): (r: Result<Based, BaselineError>)
    requires rec.Aligned()
    ensures r.Err? <==> rec.Length() == 0
    ensures r.Ok? ==> FirstPositive(rec.force) < rec.Length() && r.value.rec == RebaseAll(rec, FirstPositive(rec.force))
    ensures r.Ok? ==> var n := r.value.rec.Length();
      n > 0 && r.value.sampleRate == SampleRate(n, rec.time[|rec.time| - 1] - rec.time[FirstPositive(rec.force)])
  {
    if rec.Length() == 0 then Err(EmptyRecording)
    else
      var k := FirstPositive(rec.force);
      var m := RebaseAll(rec, k);
      var last := m.Length() - 1;
      assert k + last == |rec.time| - 1 && last < |m.time|;
      assert m.time[last] == rec.time[k + last] - rec.time[k];
      Ok(Based(m, SampleRate(m.Length(), m.time[m.Length() - 1])))
  }

  /** Samples per second over the elapsed time, or the fallback rate when no time elapsed. */
  function SampleRate(count: nat, elapsed: real): (sr: real)
    ensures elapsed != 0.0 ==> sr * elapsed == count as real
    ensures elapsed == 0.0 ==> sr == DefaultSampleRate
  {
    if elapsed != 0.0 then count as real / elapsed else DefaultSampleRate
  }
}

=== FILE: cycles.dfy ===
/**
 * Cycle structure of a recording: trough snapping to the first rising
 * gradient, the per-cycle slices between lower peaks, the cap on loading
 * cycles and the threshold-run scanner `find_loading_starts`. The peak
 * indices themselves come from scipy's `find_peaks` and are inputs here.
 */
module Cycles {
  import opened Numerics
  import opened Wrappers

  /** `np.gradient(s)` with unit spacing: one-sided at the ends, central inside. */
  function Gradient(s: seq<real>): (g: seq<real>)
    requires |s| >= 2
    ensures |g| == |s|
    ensures g[0] == s[1] - s[0]
    ensures g[|s| - 1] == s[|s| - 1] - s[|s| - 2]
    ensures forall i :: 0 < i < |s| - 1 ==> g[i] * 2.0 == s[i + 1] - s[i - 1]
  {
    seq(|s|, i requires 0 <= i < |s| =>
      if i == 0 then s[1] - s[0]
      else if i == |s| - 1 then s[i] - s[i - 1]
      else (s[i + 1] - s[i - 1]) / 2.0)
  }

  /** `np.where(grad[t:] > 0)[0][0] + t`: the least `p >= t` with a positive gradient. */
  function FirstRise(g: seq<real>, t: nat): (r: Option<nat>)
    ensures r.Some? ==> t <= r.value < |g| && g[r.value] > 0.0
    ensures r.Some? ==> forall p :: t <= p < r.value ==> g[p] <= 0.0
    ensures r.None? ==> forall p :: t <= p < |g| ==> g[p] <= 0.0
    decreases |g| - t
  {
    if t >= |g| then None
    else if g[t] > 0.0 then Some(t)
    else FirstRise(g, t + 1)
  }

  /** A later trough never snaps to an earlier rise. */
  lemma FirstRiseMonotone(g: seq<real>, t1: nat, t2: nat)
    requires t1 <= t2 && FirstRise(g, t2).Some?
    ensures FirstRise(g, t1).Some? && FirstRise(g, t1).value <= FirstRise(g, t2).value
  {
  }

  /** The strain does not rise across interior index `q` (the gradient there is not positive). */
  predicate NoRiseAcross(s: seq<real>, q: int)
  {
    0 < q < |s| - 1 ==> s[q + 1] <= s[q - 1]
  }

  /**
   * Where a trough snaps, read on the strain itself: the strain rises across
   * the snapped index (one-sided at the ends of the series), and it does not
   * rise across any interior index between the trough and that index.
   */
  lemma SnapPointRises(s: seq<real>, t: nat)
    requires |s| >= 2 && FirstRise(Gradient(s), t).Some?
    ensures var p := FirstRise(Gradient(s), t).value;
      && (p == 0 ==> s[1] > s[0])
      && (p == |s| - 1 ==> s[p] > s[p - 1])
      && (0 < p < |s| - 1 ==> s[p + 1] > s[p - 1])
      && forall q :: t <= q < p ==> NoRiseAcross(s, q)
  {
    var g := Gradient(s);
    var p := FirstRise(g, t).value;
    assert g[p] > 0.0;
    forall q | t <= q < p
      ensures NoRiseAcross(s, q)
    {
      assert g[q] <= 0.0;
    }
  }

  /**
   * The positions below `n`, in trough order, of exactly those troughs that
   * have a rise: strictly increasing, each with a rise, none with a rise
   * missing.
   */
  function Risen(g: seq<real>, troughs: seq<nat>, n: nat): (ks: seq<nat>)
    requires n <= |troughs|
    ensures |ks| <= n
    ensures StrictlyIncreasing(ks)
    ensures forall i :: 0 <= i < |ks| ==> ks[i] < n && FirstRise(g, troughs[ks[i]]).Some?
    ensures forall j :: 0 <= j < n && FirstRise(g, troughs[j]).Some? ==> j in ks
    ensures (forall j :: 0 <= j < n ==> FirstRise(g, troughs[j]).Some?) ==> |ks| == n
  {
    if n == 0 then []
    else
      var k := n - 1;
      var front := Risen(g, troughs, k);
      if FirstRise(g, troughs[k]).Some? then
        var ks := front + [k];
        assert forall i :: 0 <= i < |front| ==> ks[i] == front[i];
        assert ks[|front|] == k;
        assert StrictlyIncreasing(ks) by {
          forall i, j | 0 <= i < j < |ks|
            ensures ks[i] < ks[j]
          {
            if j == |front| {
              assert ks[i] == front[i] < k;
            }
          }
        }
        ks
      else front
  }

  /** With no trough rising, no position is listed. */
  lemma {:induction false} NoneRisen(g: seq<real>, troughs: seq<nat>, n: nat)
    requires n <= |troughs|
    requires forall j :: 0 <= j < n ==> FirstRise(g, troughs[j]).None?
    ensures Risen(g, troughs, n) == []
  {
    if n > 0 {
      NoneRisen(g, troughs, n - 1);
    }
  }

  /**
   * The snapping loop of `plot_data` and `DataProcessor.find_peaks` over the
   * first `n` troughs: one entry per trough that has a rise, in trough
   * order, namely that trough's first rise; troughs without a rise are
   * dropped.
   */
  function SnapAll(g: seq<real>, troughs: seq<nat>, n: nat): (r: seq<nat>)
    requires n <= |troughs|
    ensures |r| == |Risen(g, troughs, n)|
    ensures forall i :: 0 <= i < |r| ==> r[i] == FirstRise(g, troughs[Risen(g, troughs, n)[i]]).value
  {
    if n == 0 then []
    else
      var k := n - 1;
      var front := SnapAll(g, troughs, k);
      match FirstRise(g, troughs[k])
      case Some(p) =>
        var r := front + [p];
        assert forall i :: 0 <= i < |front| ==> r[i] == front[i];
        r
      case None => front
  }

  /** For non-decreasing troughs the snapped indices are non-decreasing. */
  lemma SnapAllOrdered(g: seq<real>, troughs: seq<nat>)
    requires NonDecreasing(troughs)
    ensures NonDecreasing(SnapAll(g, troughs, |troughs|))
  {
    var r := SnapAll(g, troughs, |troughs|);
    var ks := Risen(g, troughs, |troughs|);
    forall i, j | 0 <= i < j < |r|
      ensures r[i] <= r[j]
    {
      assert ks[i] < ks[j];
      FirstRiseMonotone(g, troughs[ks[i]], troughs[ks[j]]);
    }
  }

  /** Putting an element no larger than any of a non-decreasing list in front keeps it non-decreasing. */
  lemma ConsOrdered(p: nat, rest: seq<nat>)
    requires NonDecreasing(rest)
    requires forall i :: 0 <= i < |rest| ==> p <= rest[i]
    ensures NonDecreasing([p] + rest)
  {
    var all := [p] + rest;
    forall i, j | 0 <= i < j < |all|
      ensures all[i] <= all[j]
    {
      assert all[j] == rest[j - 1];
      if i > 0 {
        assert all[i] == rest[i - 1];
      }
    }
  }

  datatype SnapError = GradientTooShort   // `np.gradient` needs at least two samples

  /**
   * The adjusted lower-peak array. `np.array([])` is a float64 array and
   * inserting 0 keeps that dtype, so when no trough snaps the array is the
   * float `[0.]`, which numpy refuses as an index or a slice bound;
   * otherwise it is an integer array.
   */
  datatype LowerPeaks = LowerPeaks(index: seq<nat>, integral: bool)

  /**
   * The trough snapping of `plot_data` and `DataProcessor.find_peaks`: every
   * trough moved forward to its first rising gradient, troughs without one
   * dropped, and 0 inserted in front. The gradient is only computed inside
   * the loop, so no troughs means no failure.
   */
  function SnapTroughs(s: seq<real>, troughs: seq<nat>): (r: Result<LowerPeaks, SnapError>)
    ensures r.Err? <==> |troughs| > 0 && |s| < 2
    ensures r.Ok? ==> |r.value.index| >= 1 && r.value.index[0] == 0
    ensures r.Ok? && |troughs| == 0 ==> r.value == LowerPeaks([0], false)
    ensures r.Ok? && |troughs| > 0 ==> var ks := Risen(Gradient(s), troughs, |troughs|);
      && |r.value.index| == |ks| + 1
      && (forall i :: 0 <= i < |ks| ==> r.value.index[i + 1] == FirstRise(Gradient(s), troughs[ks[i]]).value)
      && (r.value.integral <==> |ks| > 0)
  {
    if |troughs| == 0 then Ok(LowerPeaks([0], false))
    else if |s| < 2 then Err(GradientTooShort)
    else
      var snapped := SnapAll(Gradient(s), troughs, |troughs|);
      Ok(LowerPeaks([0] + snapped, |snapped| > 0))
  }

  /** Snapping strictly increasing troughs yields a non-decreasing boundary list starting at 0. */
  lemma SnapTroughsOrdered(s: seq<real>, troughs: seq<nat>)
    requires StrictlyIncreasing(troughs)
    requires SnapTroughs(s, troughs).Ok?
    ensures NonDecreasing(SnapTroughs(s, troughs).value.index)
  {
    if |troughs| > 0 {
      var g := Gradient(s);
      var snapped := SnapAll(g, troughs, |troughs|);
      assert NonDecreasing(troughs) by {
        forall i, j | 0 <= i < j < |troughs| ensures troughs[i] <= troughs[j] {
          assert troughs[i] < troughs[j];
        }
      }
      SnapAllOrdered(g, troughs);
      ConsOrdered(0, snapped);
      assert SnapTroughs(s, troughs).value.index == [0] + snapped;
    }
  }

  /**
   * When no trough snaps, one upper peak is enough for either cycle plot to
   * fail on the float boundary (given a force peak, without which the plots
   * return early), where the integer boundary `[0]` would give the whole
   * series as the one cycle.
   */
  lemma NoSnappedTroughBreaksCycles(plot: CyclePlot, s: seq<real>, troughs: seq<nat>, xs: seq<real>, p: nat, forcePeaks: nat)
    requires |s| >= 2 && forcePeaks >= 1
    requires forall k :: 0 <= k < |troughs| ==> FirstRise(Gradient(s), troughs[k]).None?
    ensures SnapTroughs(s, troughs).Ok? && SnapTroughs(s, troughs).value.index == [0]
    ensures PlotCycles(plot, xs, SnapTroughs(s, troughs).value, [p], forcePeaks) == Err(NonIntegerIndex)
    ensures CycleSlices(xs, [0], [p]) == Ok([xs])
  {
    NoneRisen(Gradient(s), troughs, |troughs|);
    var lower := SnapTroughs(s, troughs).value;
    assert CycleStep(plot, xs, lower, [p], PaletteSize(plot, forcePeaks), 1) == Err(NonIntegerIndex);
    var cs := CycleSlices(xs, [0], [p]);
    assert cs.value[0] == PySlice(xs, 0, |xs|) == xs;
    assert cs.value == [xs];
  }

  /** Maximum number of loading cycles summarised. */
  const MaxLoadingCycles: nat := 5

  /** `find_loading_cycles`: only the first five force peaks are kept, in order. */
  function LoadingCycles(peaks: seq<nat>): (r: seq<nat>)
    ensures |r| == if |peaks| < MaxLoadingCycles then |peaks| else MaxLoadingCycles
    ensures r == peaks[..|r|]
  {
    if |peaks| > MaxLoadingCycles then peaks[..MaxLoadingCycles] else peaks
  }

  datatype CycleError =
    | MissingLowerPeak   // `lower_[i]` past the end of the lower peaks
    | NonIntegerIndex    // a float lower peak used as a slice bound
    | EmptyCycle         // `x[0]` of an empty cycle slice
    | PaletteOverrun     // `colors[i-1]` past the end of the palette

  /**
   * The per-cycle slices of `plot_overview` and `plot_w`: cycle `i` runs from
   * lower peak `i` to lower peak `i+1`, the last one to the end of the series.
   */
  function CycleSlices(xs: seq<real>, lower: seq<nat>, upper: seq<nat>): (r: Result<seq<seq<real>>, CycleError>)
    ensures r.Err? <==> 0 < |upper| && |lower| < |upper|
    ensures r.Ok? ==> |r.value| == |upper|
    ensures r.Ok? ==> forall c :: 0 <= c < |upper| ==> r.value[c] == PySlice(xs, lower[c], CycleEnd(xs, lower, upper, c))
  {
    if |upper| == 0 then Ok([])
    else if |lower| < |upper| then Err(MissingLowerPeak)
    else Ok(seq(|upper|, c requires 0 <= c < |upper| => PySlice(xs, lower[c], CycleEnd(xs, lower, upper, c))))
  }

  /** The two cycle plots: `plot_overview` draws every cycle on one axis, `plot_w` one closed loop per tab. */
  datatype CyclePlot = Overview | Tabs

  /**
   * Colours a cycle plot has: `base_colors[:n]` of eight base colours, with
   * `n = min(len(locs) + 2, 10)` in `plot_overview` and
   * `n = min(len(locs) + 1, 8)` in `plot_w`, `locs` being the force peaks.
   */
  function PaletteSize(plot: CyclePlot, forcePeaks: nat): (n: nat)
    ensures n <= 8
    ensures plot.Overview? ==> n == if forcePeaks + 2 < 8 then forcePeaks + 2 else 8
    ensures plot.Tabs? ==> n == if forcePeaks + 1 < 8 then forcePeaks + 1 else 8
  {
    var wanted := match plot case Overview => forcePeaks + 2 case Tabs => forcePeaks + 1;
    if wanted < 8 then wanted else 8
  }

  /**
   * Iteration `i` (from 1) of the cycle loop, in source order: `lower_[i-1]`,
   * then `lower_[i]` unless it is the last cycle, then the slice (refused for
   * a float boundary array), then `colors[i-1]`, then, in `plot_w` only,
   * `x[0]` to close the loop.
   */
  function CycleStep(plot: CyclePlot, xs: seq<real>, lower: LowerPeaks, upper: seq<nat>, palette: nat, i: nat)
    : (r: Result<seq<real>, CycleError>)
    requires 1 <= i <= |upper|
    ensures r.Ok? ==> lower.integral && i <= palette && i - 1 < |lower.index|
    ensures r.Ok? && |upper| <= |lower.index| ==> r.value == CycleSlices(xs, lower.index, upper).value[i - 1]
    ensures r.Ok? && plot.Tabs? ==> |r.value| > 0 && lower.index[i - 1] < |xs| && r.value[0] == xs[lower.index[i - 1]]
    ensures && |upper| <= |lower.index| && lower.integral && i <= palette
            && (plot.Tabs? ==> |CycleSlices(xs, lower.index, upper).value[i - 1]| > 0)
            ==> r.Ok?
  {
    var last := i == |upper|;
    if i - 1 >= |lower.index| || (!last && i >= |lower.index|) then Err(MissingLowerPeak)
    else if !lower.integral then Err(NonIntegerIndex)
    else
      var x := PySlice(xs, lower.index[i - 1], if last then |xs| else lower.index[i]);
      if i - 1 >= palette then Err(PaletteOverrun)
      else if plot.Tabs? && |x| == 0 then Err(EmptyCycle)
      else Ok(x)
  }

  /** The first `n` iterations of the cycle loop: all their cycles, or the error of the first that fails. */
  function PlotLoop(plot: CyclePlot, xs: seq<real>, lower: LowerPeaks, upper: seq<nat>, palette: nat, n: nat)
    : (r: Result<seq<seq<real>>, CycleError>)
    requires n <= |upper|
    ensures r.Ok? <==> forall i :: 1 <= i <= n ==> CycleStep(plot, xs, lower, upper, palette, i).Ok?
    ensures r.Ok? ==> |r.value| == n
    ensures r.Ok? ==> forall c :: 0 <= c < n ==> r.value[c] == CycleStep(plot, xs, lower, upper, palette, c + 1).value
    ensures forall i :: (1 <= i <= n && CycleStep(plot, xs, lower, upper, palette, i).Err?
                         && (forall j :: 1 <= j < i ==> CycleStep(plot, xs, lower, upper, palette, j).Ok?))
                         ==> r == Err(CycleStep(plot, xs, lower, upper, palette, i).error)
  {
    if n == 0 then Ok([])
    else
      match PlotLoop(plot, xs, lower, upper, palette, n - 1)
      case Err(e) => Err(e)
      case Ok(front) =>
        match CycleStep(plot, xs, lower, upper, palette, n)
        case Err(e) => Err(e)
        case Ok(x) =>
          var r := front + [x];
          assert forall c :: 0 <= c < n - 1 ==> r[c] == front[c];
          Ok(r)
  }

  /**
   * `plot_overview` and `plot_w` over the adjusted lower peaks. Without a
   * force peak they return before drawing anything. Otherwise every cycle
   * is drawn exactly when no lower peak is missing, the boundary array is
   * integral, the palette has a colour for every cycle and, for `plot_w`,
   * no cycle is empty; the cycles are then those of `CycleSlices`.
   */
  function PlotCycles(plot: CyclePlot, xs: seq<real>, lower: LowerPeaks, upper: seq<nat>, forcePeaks: nat)
    : (r: Result<seq<seq<real>>, CycleError>)
    ensures forcePeaks == 0 ==> r == Ok([])
    ensures forcePeaks > 0 ==>
              (r.Ok? <==>
                 (|| |upper| == 0
                  || (&& |upper| <= |lower.index| && lower.integral && |upper| <= PaletteSize(plot, forcePeaks)
                      && (plot.Tabs? ==> forall c :: 0 <= c < |upper| ==> |CycleSlices(xs, lower.index, upper).value[c]| > 0))))
    ensures forcePeaks > 0 && r.Ok? ==> r == CycleSlices(xs, lower.index, upper)
  {
    if forcePeaks == 0 then Ok([])
    else
      var palette := PaletteSize(plot, forcePeaks);
      StepsAgree(plot, xs, lower, upper, palette);
      var r := PlotLoop(plot, xs, lower, upper, palette, |upper|);
      if r.Ok? then
        var cs := CycleSlices(xs, lower.index, upper);
        assert cs.Ok? && |cs.value| == |r.value|;
        assert forall c :: 0 <= c < |upper| ==> r.value[c] == CycleStep(plot, xs, lower, upper, palette, c + 1).value == cs.value[c];
        assert r.value == cs.value;
        r
      else r
  }

  /** Every iteration succeeds exactly when the whole slicing can, and each then yields its `CycleSlices` cycle. */
  lemma StepsAgree(plot: CyclePlot, xs: seq<real>, lower: LowerPeaks, upper: seq<nat>, palette: nat)
    ensures (forall i :: 1 <= i <= |upper| ==> CycleStep(plot, xs, lower, upper, palette, i).Ok?) <==>
      (|upper| == 0 ||
       (&& |upper| <= |lower.index| && lower.integral && |upper| <= palette
        && (plot.Tabs? ==> forall c :: 0 <= c < |upper| ==> |CycleSlices(xs, lower.index, upper).value[c]| > 0)))
    ensures |upper| <= |lower.index| ==> forall i :: 1 <= i <= |upper| && CycleStep(plot, xs, lower, upper, palette, i).Ok? ==>
      CycleStep(plot, xs, lower, upper, palette, i).value == CycleSlices(xs, lower.index, upper).value[i - 1]
  {
    var cs := CycleSlices(xs, lower.index, upper);
    if |upper| <= |lower.index| {
      forall i | 1 <= i <= |upper| && CycleStep(plot, xs, lower, upper, palette, i).Ok?
        ensures CycleStep(plot, xs, lower, upper, palette, i).value == cs.value[i - 1]
      {
        assert cs.value[i - 1] == PySlice(xs, lower.index[i - 1], CycleEnd(xs, lower.index, upper, i - 1));
      }
    }
    if |upper| > 0 && forall i :: 1 <= i <= |upper| ==> CycleStep(plot, xs, lower, upper, palette, i).Ok? {
      assert CycleStep(plot, xs, lower, upper, palette, |upper|).Ok?;
      assert CycleStep(plot, xs, lower, upper, palette, 1).Ok?;
      if plot.Tabs? {
        forall c | 0 <= c < |upper|
          ensures |cs.value[c]| > 0
        {
          assert CycleStep(plot, xs, lower, upper, palette, c + 1).Ok?;
        }
      }
    }
    if && |upper| > 0 && |upper| <= |lower.index| && lower.integral && |upper| <= palette
       && (plot.Tabs? ==> forall c :: 0 <= c < |upper| ==> |cs.value[c]| > 0)
    {
      forall i | 1 <= i <= |upper|
        ensures CycleStep(plot, xs, lower, upper, palette, i).Ok?
      {
        if plot.Tabs? {
          assert |cs.value[i - 1]| > 0;
          assert cs.value[i - 1] == PySlice(xs, lower.index[i - 1], CycleEnd(xs, lower.index, upper, i - 1));
        }
      }
    }
  }

  /**
   * With the recording's force peaks capped at five, `plot_w` has six
   * colours: a seventh cycle overruns the palette even when every lower
   * peak is present and every cycle before it is drawn.
   */
  lemma PaletteRunsOut(plot: CyclePlot, xs: seq<real>, lower: LowerPeaks, upper: seq<nat>, forcePeaks: nat)
    requires forcePeaks >= 1 && lower.integral && |upper| <= |lower.index|
    requires PaletteSize(plot, forcePeaks) < |upper|
    requires forall c :: 0 <= c < PaletteSize(plot, forcePeaks) ==> |CycleSlices(xs, lower.index, upper).value[c]| > 0
    ensures PlotCycles(plot, xs, lower, upper, forcePeaks) == Err(PaletteOverrun)
  {
    var palette := PaletteSize(plot, forcePeaks);
    forall j | 1 <= j < palette + 1
      ensures CycleStep(plot, xs, lower, upper, palette, j).Ok?
    {
      assert |CycleSlices(xs, lower.index, upper).value[j - 1]| > 0;
    }
    assert CycleStep(plot, xs, lower, upper, palette, palette + 1) == Err(PaletteOverrun);
  }

  /** Five kept force peaks and seven strain peaks: `plot_w` fails on the seventh cycle. */
  lemma SevenCyclesOverrunTabs(xs: seq<real>, lower: LowerPeaks, upper: seq<nat>, forcePeaks: seq<nat>)
    requires |forcePeaks| >= MaxLoadingCycles && |upper| == 7 && |lower.index| >= 7 && lower.integral
    requires forall c :: 0 <= c < 6 ==> |CycleSlices(xs, lower.index, upper).value[c]| > 0
    ensures PlotCycles(Tabs, xs, lower, upper, |LoadingCycles(forcePeaks)|) == Err(PaletteOverrun)
  {
    assert PaletteSize(Tabs, |LoadingCycles(forcePeaks)|) == 6;
    PaletteRunsOut(Tabs, xs, lower, upper, |LoadingCycles(forcePeaks)|);
  }

  /** Where cycle `c` ends: at the next lower peak, or at the end of the series for the last cycle. */
  function CycleEnd(xs: seq<real>, lower: seq<nat>, upper: seq<nat>, c: nat): nat
    requires c < |upper| <= |lower|
  {
    if c + 1 == |upper| then |xs| else lower[c + 1]
  }

  /** `plot_w` additionally reads the first point of every cycle to close the loop. */
  function ClosedCycleSlices(xs: seq<real>, lower: seq<nat>, upper: seq<nat>): (r: Result<seq<seq<real>>, CycleError>)
    ensures r.Ok? <==> CycleSlices(xs, lower, upper).Ok? && forall c :: 0 <= c < |upper| ==> |CycleSlices(xs, lower, upper).value[c]| > 0
    ensures r.Ok? ==> r.value == CycleSlices(xs, lower, upper).value
    ensures r.Ok? ==> forall c :: 0 <= c < |upper| ==> lower[c] < |xs| && r.value[c][0] == xs[lower[c]]
  {
    match CycleSlices(xs, lower, upper)
    case Err(e) => Err(e)
    case Ok(cs) =>
      if exists c :: 0 <= c < |cs| && |cs[c]| == 0 then Err(EmptyCycle) else Ok(cs)
  }

  function Flatten(ss: seq<seq<real>>): seq<real>
  {
    if |ss| == 0 then [] else ss[0] + Flatten(ss[1..])
  }

  /** The slices between consecutive boundaries of a non-decreasing boundary list. */
  function Between(xs: seq<real>, b: seq<nat>): (ss: seq<seq<real>>)
    requires |b| >= 1
    requires forall i :: 0 <= i < |b| ==> b[i] <= |xs|
    requires NonDecreasing(b)
    ensures |ss| == |b| - 1
    ensures forall c :: 0 <= c < |ss| ==> ss[c] == xs[b[c]..b[c + 1]]
  {
    seq(|b| - 1, c requires 0 <= c < |b| - 1 => xs[b[c]..b[c + 1]])
  }

  /** Slices between consecutive ordered boundaries concatenate to the slice between the outer ones. */
  lemma {:induction false} FlattenBetween(xs: seq<real>, b: seq<nat>)
    requires |b| >= 1
    requires forall i :: 0 <= i < |b| ==> b[i] <= |xs|
    requires NonDecreasing(b)
    ensures Flatten(Between(xs, b)) == xs[b[0]..b[|b| - 1]]
  {
    if |b| > 1 {
      var ss := Between(xs, b);
      var tail := b[1..];
      FlattenBetween(xs, tail);
      var ts := Between(xs, tail);
      assert |ss[1..]| == |ts|;
      forall c | 0 <= c < |ts|
        ensures ss[1..][c] == ts[c]
      {
        assert tail[c] == b[c + 1] && tail[c + 1] == b[c + 2];
      }
      assert ss[1..] == ts;
      assert xs[b[0]..b[1]] + xs[b[1]..b[|b| - 1]] == xs[b[0]..b[|b| - 1]];
    }
  }

  /**
   * For ordered lower peaks inside the series, the cycles partition the
   * series from the first lower peak to its end: nothing is lost or repeated.
   */
  lemma CyclesPartitionSeries(xs: seq<real>, lower: seq<nat>, upper: seq<nat>)
    requires 0 < |upper| <= |lower|
    requires NonDecreasing(lower)
    requires forall i :: 0 <= i < |lower| ==> lower[i] <= |xs|
    ensures CycleSlices(xs, lower, upper).Ok?
    ensures Flatten(CycleSlices(xs, lower, upper).value) == xs[lower[0]..]
  {
    var b := Boundaries(xs, lower, upper);
    FlattenBetween(xs, b);
    CyclesBetween(xs, lower, upper);
  }

  /** The cycle boundaries: the lower peaks in use, then the end of the series. */
  function Boundaries(xs: seq<real>, lower: seq<nat>, upper: seq<nat>): (b: seq<nat>)
    requires 0 < |upper| <= |lower|
    requires NonDecreasing(lower)
    requires forall i :: 0 <= i < |lower| ==> lower[i] <= |xs|
    ensures |b| == |upper| + 1 && b[|b| - 1] == |xs|
    ensures forall i :: 0 <= i < |upper| ==> b[i] == lower[i]
    ensures forall i :: 0 <= i < |b| ==> b[i] <= |xs|
    ensures NonDecreasing(b)
  {
    lower[..|upper|] + [|xs|]
  }

  /** Cycle `c` is the slice between boundaries `c` and `c + 1`. */
  lemma CyclesBetween(xs: seq<real>, lower: seq<nat>, upper: seq<nat>)
    requires 0 < |upper| <= |lower|
    requires NonDecreasing(lower)
    requires forall i :: 0 <= i < |lower| ==> lower[i] <= |xs|
    ensures CycleSlices(xs, lower, upper).Ok?
    ensures var b := Boundaries(xs, lower, upper);
      CycleSlices(xs, lower, upper).value == Between(xs, b)
  {
    var b := Boundaries(xs, lower, upper);
    var cs := CycleSlices(xs, lower, upper).value;
    var ss := Between(xs, b);
    forall c | 0 <= c < |upper|
      ensures cs[c] == ss[c]
    {
      CycleAt(xs, lower, upper, c);
    }
    assert cs == ss;
  }

  /** Cycle `c` runs from boundary `c` to boundary `c + 1`. */
  lemma CycleAt(xs: seq<real>, lower: seq<nat>, upper: seq<nat>, c: nat)
    requires c < |upper| <= |lower|
    requires NonDecreasing(lower)
    requires forall i :: 0 <= i < |lower| ==> lower[i] <= |xs|
    ensures var b := Boundaries(xs, lower, upper);
      CycleSlices(xs, lower, upper).value[c] == xs[b[c]..b[c + 1]]
  {
    var b := Boundaries(xs, lower, upper);
    var end := CycleEnd(xs, lower, upper, c);
    assert b[c] == lower[c] && b[c + 1] == end;
    assert lower[c] <= end <= |xs|;
    assert PySlice(xs, lower[c], end) == xs[lower[c]..end];
  }

  /** `data[i] > threshold` inside the series. */
  predicate Above(data: seq<real>, thr: real, i: int)
  {
    0 <= i < |data| && data[i] > thr
  }

  predicate NoneAbove(data: seq<real>, thr: real, lo: int, hi: int)
  {
    forall j :: lo <= j < hi ==> !Above(data, thr, j)
  }

  /** The end of the run of above-threshold samples that starts at `s`. */
  function RunEnd(data: seq<real>, thr: real, s: nat): (r: nat)
    ensures s <= r
    ensures s <= |data| ==> r <= |data|
    ensures forall j :: s <= j < r ==> Above(data, thr, j)
    ensures !Above(data, thr, r)
    decreases |data| - s
  {
    if s < |data| && data[s] > thr then RunEnd(data, thr, s + 1) else s
  }

  lemma RunEndAt(data: seq<real>, thr: real, s: nat, i: nat)
    requires s <= i <= |data|
    requires forall j :: s <= j < i ==> Above(data, thr, j)
    requires !Above(data, thr, i)
    ensures RunEnd(data, thr, s) == i
    decreases i - s
  {
    if s < i {
      RunEndAt(data, thr, s + 1, i);
    }
  }

  /** Where the scan resumes after the `k`-th start: past its run and the minimum interval. */
  function Resume(data: seq<real>, thr: real, minInterval: int, starts: seq<nat>, k: nat): int
    requires k <= |starts|
  {
    if k == 0 then 0 else RunEnd(data, thr, starts[k - 1]) + minInterval
  }

  /** Start `k` is above the threshold, and nothing is above it between the resume point and the start. */
  predicate StartScanned(data: seq<real>, thr: real, minInterval: int, starts: seq<nat>, k: nat)
    requires k < |starts|
  {
    && Above(data, thr, starts[k])
    && Resume(data, thr, minInterval, starts, k) <= starts[k]
    && NoneAbove(data, thr, Resume(data, thr, minInterval, starts, k), starts[k])
  }

  /** Every start found so far was found by the scan. */
  predicate ScannedStarts(data: seq<real>, thr: real, minInterval: int, starts: seq<nat>)
  {
    forall k: nat :: k < |starts| ==> StartScanned(data, thr, minInterval, starts, k)
  }

  /**
   * `find_loading_starts`: the index where each run above the threshold
   * begins, skipping `min_interval` samples after every run. A negative
   * interval would revisit the same run forever, hence the precondition.
   */
  method FindLoadingStarts(data: seq<real>, thr: real, minInterval: int) returns (starts: seq<nat>)
    requires minInterval >= 0
    ensures ScannedStarts(data, thr, minInterval, starts)
    ensures NoneAbove(data, thr, Resume(data, thr, minInterval, starts, |starts|), |data|)
    ensures forall k :: 0 <= k < |starts| ==> starts[k] < |data| && data[starts[k]] > thr
    ensures forall k :: 0 <= k < |starts| - 1 ==> starts[k + 1] >= starts[k] + 1 + minInterval
    ensures |starts| > 0 ==> NoneAbove(data, thr, 0, starts[0])
    ensures |starts| == 0 <==> NoneAbove(data, thr, 0, |data|)
  {
    var n := |data|;
    var i: int := 0;
    starts := [];
    while i < n
      invariant 0 <= i
      invariant ScannedStarts(data, thr, minInterval, starts)
      invariant i == Resume(data, thr, minInterval, starts, |starts|)
      decreases n - i
    {
      i := SkipBelow(data, thr, i);
      if i >= n {
        break;
      }
      var s := i;
      ScannedExtend(data, thr, minInterval, starts, s);
      starts := starts + [s];
      i := SkipRun(data, thr, s);
      i := i + minInterval;
    }
    ScanComplete(data, thr, minInterval, starts);
  }

  /** The inner `while i < n and not data[i] > threshold` loop: the next above-threshold index, or the length. */
  method SkipBelow(data: seq<real>, thr: real, from: nat) returns (i: nat)
    requires from <= |data|
    ensures from <= i <= |data|
    ensures NoneAbove(data, thr, from, i)
    ensures i < |data| ==> Above(data, thr, i)
  {
    i := from;
    while i < |data| && !(data[i] > thr)
      invariant from <= i <= |data|
      invariant NoneAbove(data, thr, from, i)
    {
      i := i + 1;
    }
  }

  /** The inner `while i < n and data[i] > threshold` loop: the end of the run from `s`. */
  method SkipRun(data: seq<real>, thr: real, s: nat) returns (i: nat)
    requires s <= |data|
    ensures i == RunEnd(data, thr, s)
  {
    i := s;
    while i < |data| && data[i] > thr
      invariant s <= i <= |data|
      invariant forall j :: s <= j < i ==> Above(data, thr, j)
    {
      i := i + 1;
    }
    RunEndAt(data, thr, s, i);
  }

  /** What a finished scan says about the starts it found. */
  lemma ScanComplete(data: seq<real>, thr: real, minInterval: int, starts: seq<nat>)
    requires minInterval >= 0
    requires ScannedStarts(data, thr, minInterval, starts)
    requires NoneAbove(data, thr, Resume(data, thr, minInterval, starts, |starts|), |data|)
    ensures forall k :: 0 <= k < |starts| ==> starts[k] < |data| && data[starts[k]] > thr
    ensures forall k :: 0 <= k < |starts| - 1 ==> starts[k + 1] >= starts[k] + 1 + minInterval
    ensures |starts| > 0 ==> NoneAbove(data, thr, 0, starts[0])
    ensures |starts| == 0 <==> NoneAbove(data, thr, 0, |data|)
  {
    StartsSpaced(data, thr, minInterval, starts);
    forall k | 0 <= k < |starts|
      ensures starts[k] < |data| && data[starts[k]] > thr
    {
      assert StartScanned(data, thr, minInterval, starts, k);
    }
    if |starts| > 0 {
      assert StartScanned(data, thr, minInterval, starts, 0);
    }
  }

  /** Appending a start found after the resume point keeps the scan valid and moves the resume point past its run. */
  lemma ScannedExtend(data: seq<real>, thr: real, minInterval: int, starts: seq<nat>, s: nat)
    requires ScannedStarts(data, thr, minInterval, starts)
    requires Above(data, thr, s)
    requires Resume(data, thr, minInterval, starts, |starts|) <= s
    requires NoneAbove(data, thr, Resume(data, thr, minInterval, starts, |starts|), s)
    ensures ScannedStarts(data, thr, minInterval, starts + [s])
    ensures Resume(data, thr, minInterval, starts + [s], |starts| + 1) == RunEnd(data, thr, s) + minInterval
  {
    var ext := starts + [s];
    forall k: nat | k < |ext|
      ensures StartScanned(data, thr, minInterval, ext, k)
    {
      SameResume(data, thr, minInterval, starts, s, k);
      if k < |starts| {
        assert ext[k] == starts[k];
        assert StartScanned(data, thr, minInterval, starts, k);
      }
    }
  }

  lemma SameResume(data: seq<real>, thr: real, minInterval: int, starts: seq<nat>, s: nat, k: nat)
    requires k <= |starts|
    ensures Resume(data, thr, minInterval, starts + [s], k) == Resume(data, thr, minInterval, starts, k)
  {
    if k > 0 {
      assert (starts + [s])[k - 1] == starts[k - 1];
    }
  }

  /** Consecutive starts are separated by at least the run of the first and the minimum interval. */
  lemma StartsSpaced(data: seq<real>, thr: real, minInterval: int, starts: seq<nat>)
    requires minInterval >= 0
    requires ScannedStarts(data, thr, minInterval, starts)
    ensures forall k :: 0 <= k < |starts| - 1 ==> starts[k + 1] >= starts[k] + 1 + minInterval
  {
    forall k | 0 <= k < |starts| - 1
      ensures starts[k + 1] >= starts[k] + 1 + minInterval
    {
      StartAfterRun(data, thr, minInterval, starts, k);
    }
  }

  /** Start `k + 1` lies past the run of start `k` and the interval after it. */
  lemma StartAfterRun(data: seq<real>, thr: real, minInterval: int, starts: seq<nat>, k: nat)
    requires ScannedStarts(data, thr, minInterval, starts)
    requires k + 1 < |starts|
    ensures starts[k + 1] >= RunEnd(data, thr, starts[k]) + minInterval
    ensures RunEnd(data, thr, starts[k]) > starts[k]
  {
    assert StartScanned(data, thr, minInterval, starts, k);
    assert StartScanned(data, thr, minInterval, starts, k + 1);
  }
}

=== FILE: geometry.dfy ===
/**
 * Specimen geometry and the stress/strain mapping: form factor, shape
 * coefficient, per-sample stress and strain, unit translation and the
 * median-filter window clamp.
 */
module Geometry {
  import opened Numerics
  import opened Wrappers
  import Helpers

  datatype GeometryError = ZeroDivision   // Python float division by zero raises

  /** Loaded area of a rectangular specimen, mm². */
  function Area(width: real, length: real): real
  {
    width * length
  }

  /** Side (lateral) surface of the specimen: the perimeter times the height. */
  function LateralArea(width: real, length: real, height: real): real
  {
    2.0 * height * (width + length)
  }

  /** `form_factor = width / initial_height`, a Python float division. */
  function FormFactor(width: real, height: real): (r: Result<real, GeometryError>)
    ensures r.Err? <==> height == 0.0
    ensures r.Ok? ==> r.value * height == width
  {
    if height == 0.0 then Err(ZeroDivision) else Ok(width / height)
  }

  /**
   * The shape coefficient `q` of the older analyser: loaded area over the
   * lateral surface area.
   */
  function ShapeCoefficient(width: real, length: real, height: real): (r: Result<real, GeometryError>)
    ensures r.Err? <==> height == 0.0 || width + length == 0.0
    ensures r.Ok? ==> r.value * LateralArea(width, length, height) == Area(width, length)
  {
    var lateral := 2.0 * height * (width + length);
    if lateral == 0.0 then Err(ZeroDivision) else Ok(width * length / lateral)
  }

  /** The stress and strain series, index-aligned with the force and displacement they come from. */
  datatype StressStrain = StressStrain(stress: seq<Sample>, strain: seq<real>)

  /**
   * Stress and strain of every sample: `strain = displacement / h` and
   * `stress = (force / (area * 1e-6)) * 1e-6`. The form factor is computed
   * first, so a zero height raises before any array is built; a zero area
   * only yields non-finite stress (numpy does not raise).
   */
  function MapStressStrain(force: seq<real>, displacement: seq<real>, width: real, length: real, height: real)
    : (r: Result<StressStrain, GeometryError>)
    requires |force| == |displacement|
    ensures r.Err? <==> height == 0.0
    ensures r.Ok? ==> |r.value.stress| == |force| && |r.value.strain| == |force|
    ensures r.Ok? ==> forall i :: 0 <= i < |force| ==> r.value.strain[i] * height == displacement[i]
    ensures r.Ok? ==> forall i :: 0 <= i < |force| ==> r.value.stress[i] == Div(force[i], Area(width, length))
  {
    if FormFactor(width, height).Err? then Err(ZeroDivision)
    else
      var areaM2 := Area(width, length) * 0.000001;
      var stress := seq(|force|, i requires 0 <= i < |force| => Mul(Div(force[i], areaM2), Fin(0.000001)));
      var strain := seq(|displacement|, i requires 0 <= i < |displacement| => displacement[i] / height);
      assert forall i :: 0 <= i < |force| ==> stress[i] == Div(force[i], Area(width, length)) by {
        forall i | 0 <= i < |force|
          ensures stress[i] == Div(force[i], Area(width, length))
        {
          PascalToMegapascal(force[i], Area(width, length));
        }
      }
      Ok(StressStrain(stress, strain))
  }

  /** Dividing by the area in m² and scaling by 1e-6 is dividing by the area in mm². */
  lemma PascalToMegapascal(f: real, area: real)
    ensures Mul(Div(f, area * 0.000001), Fin(0.000001)) == Div(f, area)
  {
    if area != 0.0 {
      var p := f / (area * 0.000001);
      assert p * (area * 0.000001) == f;
      assert p * 0.000001 * area == f;
    }
  }

  /** The stress series is the force series over the area: multiplying back recovers the force. */
  lemma {:induction false} StressRecoversForce(force: seq<real>, displacement: seq<real>, width: real, length: real, height: real)
    requires |force| == |displacement|
    requires height != 0.0 && Area(width, length) != 0.0
    ensures MapStressStrain(force, displacement, width, length, height).Ok?
    ensures var ss := MapStressStrain(force, displacement, width, length, height).value;
      forall i :: 0 <= i < |force| ==> ss.stress[i].Fin? && ss.stress[i].v * Area(width, length) == force[i]
  {
  }

  /**
   * `DataProcessor.process_data`: stress and strain over the whole table,
   * each passed through `interpolate_nans`. The validity mask it computes is
   * never applied, so nothing is dropped and `time` is returned unchanged.
   */
  datatype Processed = Processed(stress: seq<Sample>, strain: seq<Sample>, time: seq<real>)

  datatype ProcessError = BadGeometry | TooFewPoints

  /**
   * The modulus step of both analysers: the continuous modulus
   * `np.gradient(stress, strain)` passed through `interpolate_nans`. The
   * gradient is foreign numerics and arrives as `modulus`; `interp1d` raises
   * when fewer than two of its entries are not NaN, and nothing after the
   * step runs then.
   */
  function ModulusStep(modulus: seq<Sample>): (r: Result<seq<Sample>, ProcessError>)
    ensures r.Err? <==> |Helpers.Nodes(modulus, Helpers.NotNaN)| < 2
    ensures r.Ok? ==> |r.value| == |modulus|
  {
    match Helpers.InterpolateNans(modulus)
    case Ok(m) => Ok(m)
    case Err(_) => Err(TooFewPoints)
  }

  /** A modulus series that is NaN everywhere (zero strain spacing gives `0/0`) stops the processing. */
  lemma AllNaNModulusFails(modulus: seq<Sample>)
    requires forall i :: 0 <= i < |modulus| ==> modulus[i].NaN?
    ensures ModulusStep(modulus) == Err(TooFewPoints)
  {
    Helpers.NoNodes(modulus, Helpers.NotNaN);
  }

  /**
   * `process_data` up to the modulus step. `modulus` is what the foreign
   * `np.gradient(stress, strain)` returns for the interpolated series, one
   * entry per row.
   */
  function ProcessData(force: seq<real>, displacement: seq<real>, time: seq<real>, modulus: seq<Sample>,
                       width: real, length: real, height: real)
    : (r: Result<Processed, ProcessError>)
    requires |force| == |displacement| == |time| == |modulus|
    ensures r.Ok? ==> |r.value.stress| == |force| && |r.value.strain| == |force| && r.value.time == time
    ensures r == Err(BadGeometry) <==> height == 0.0
    ensures height != 0.0 ==> var ss := MapStressStrain(force, displacement, width, length, height).value;
      (r == Err(TooFewPoints) <==>
        |force| < 2 || |Helpers.Nodes(ss.stress, Helpers.NotNaN)| < 2 || |Helpers.Nodes(modulus, Helpers.NotNaN)| < 2)
  {
    match MapStressStrain(force, displacement, width, length, height)
    case Err(_) => Err(BadGeometry)
    case Ok(ss) =>
      var strain := seq(|ss.strain|, i requires 0 <= i < |ss.strain| => Fin(ss.strain[i]));
      StrainNodes(strain);
      match (Helpers.InterpolateNans(strain), Helpers.InterpolateNans(ss.stress), ModulusStep(modulus))
      case (Ok(e), Ok(p), Ok(_)) => Ok(Processed(p, e, time))
      case _ => Err(TooFewPoints)
  }

  /** A finite series has a node at every index, so at least two exactly when it has two entries. */
  lemma StrainNodes(strain: seq<Sample>)
    requires forall i :: 0 <= i < |strain| ==> strain[i].Fin?
    ensures |Helpers.Nodes(strain, Helpers.NotNaN)| < 2 <==> |strain| < 2
  {
    if |strain| >= 2 {
      Helpers.AtLeastTwoNodes(strain, Helpers.NotNaN);
    }
  }

  /**
   * With a non-degenerate geometry, at least two rows and a modulus with two
   * entries that are not NaN, the interpolation has nothing to fill: stress
   * and strain come out finite and exact.
   */
  lemma ProcessDataExact(force: seq<real>, displacement: seq<real>, time: seq<real>, modulus: seq<Sample>,
                         width: real, length: real, height: real)
    requires |force| == |displacement| == |time| == |modulus| >= 2
    requires height != 0.0 && Area(width, length) != 0.0
    requires |Helpers.Nodes(modulus, Helpers.NotNaN)| >= 2
    ensures ProcessData(force, displacement, time, modulus, width, length, height).Ok?
    ensures var p := ProcessData(force, displacement, time, modulus, width, length, height).value;
      forall i :: 0 <= i < |force| ==>
        p.stress[i] == Fin(force[i] / Area(width, length)) && p.strain[i] == Fin(displacement[i] / height)
  {
    var ss := MapStressStrain(force, displacement, width, length, height).value;
    var strain := seq(|ss.strain|, i requires 0 <= i < |ss.strain| => Fin(ss.strain[i]));
    Helpers.InterpolateUnchanged(strain, Helpers.NotNaN);
    Helpers.InterpolateUnchanged(ss.stress, Helpers.NotNaN);
    forall i | 0 <= i < |force|
      ensures ss.stress[i] == Fin(force[i] / Area(width, length))
      ensures strain[i] == Fin(displacement[i] / height)
    {
      assert ss.stress[i] == Div(force[i], Area(width, length));
    }
  }

  /**
   * Two rows with the same displacement: however regular the stress, an
   * all-NaN modulus stops `process_data`, before any peak is searched.
   */
  lemma DegenerateModulusStops(force: seq<real>, displacement: seq<real>, time: seq<real>, modulus: seq<Sample>,
                               width: real, length: real, height: real)
    requires |force| == |displacement| == |time| == |modulus|
    requires height != 0.0
    requires forall i :: 0 <= i < |modulus| ==> modulus[i].NaN?
    ensures ProcessData(force, displacement, time, modulus, width, length, height) == Err(TooFewPoints)
  {
    AllNaNModulusFails(modulus);
  }

  /** `translate_units`: every element multiplied by `units`. */
  function TranslateUnits(data: seq<real>, units: real): (r: seq<real>)
    ensures |r| == |data|
    ensures forall i :: 0 <= i < |r| ==> r[i] == data[i] * units
  {
    Scale(data, units)
  }

  /**
   * The median-filter window: `min(size, n // 4 or 1)`. It never exceeds the
   * configured size, is at least one whenever the configured size is, and is
   * capped at a quarter of the series (one for series shorter than four).
   */
  function MedianWindow(size: int, n: nat): (w: int)
    ensures w <= size
    ensures size >= 1 ==> w >= 1
    ensures n >= 4 ==> w <= n / 4 && (w == size || w == n / 4)
    ensures n < 4 ==> w <= 1 && (w == size || w == 1)
  {
    var quarter := n / 4;
    var cap := if quarter == 0 then 1 else quarter;
    if size < cap then size else cap
  }
}

=== FILE: helpers.dfy ===
/**
 * The NaN/Inf cleaning helpers: `interpolate_nans` (scipy `interp1d`,
 * linear, extrapolating) and `remove_spikes`.
 */
module Helpers {
  import opened Numerics
  import opened Wrappers

  /** Which samples take part as interpolation nodes. */
  datatype Mask =
    | NotNaN   // `~np.isnan(data)`: the infinities count as nodes
    | Finite   // `np.isfinite(data)`: only finite values are nodes

  predicate Keeps(mask: Mask, x: Sample)
  {
    match mask
    case NotNaN => !x.NaN?
    case Finite => x.Fin?
  }

  datatype InterpError = TooFewNodes   // `interp1d` needs at least two nodes

  /** The node indices `indices[mask]`, in increasing order. */
  function Nodes(s: seq<Sample>, mask: Mask): (v: seq<nat>)
    ensures StrictlyIncreasing(v)
    ensures forall k :: 0 <= k < |v| ==> v[k] < |s| && Keeps(mask, s[v[k]])
  {
    if |s| == 0 then []
    else
      var front := Nodes(s[..|s| - 1], mask);
      assert forall i :: 0 <= i < |s| - 1 ==> s[..|s| - 1][i] == s[i];
      if Keeps(mask, s[|s| - 1]) then front + [|s| - 1] else front
  }

  /** A series the mask keeps nowhere has no node. */
  lemma {:induction false} NoNodes(s: seq<Sample>, mask: Mask)
    requires forall i :: 0 <= i < |s| ==> !Keeps(mask, s[i])
    ensures Nodes(s, mask) == []
  {
    if |s| > 0 {
      NoNodes(s[..|s| - 1], mask);
    }
  }

  /** `np.searchsorted(v, x)` (side "left"): the number of nodes below `x`. */
  function SearchSorted(v: seq<nat>, x: nat): (j: nat)
    requires StrictlyIncreasing(v)
    ensures j <= |v|
    ensures forall k :: 0 <= k < j ==> v[k] < x
    ensures forall k :: j <= k < |v| ==> v[k] >= x
  {
    if |v| == 0 || v[0] >= x then 0
    else 1 + SearchSorted(v[1..], x)
  }

  /** In a strictly increasing list, the search position is pinned by its two neighbours. */
  lemma SearchSortedAt(v: seq<nat>, x: nat, j: nat)
    requires StrictlyIncreasing(v)
    requires j <= |v|
    requires j == 0 || v[j - 1] < x
    requires j == |v| || v[j] >= x
    ensures SearchSorted(v, x) == j
  {
    var r := SearchSorted(v, x);
    if r < j {
      assert false;
    } else if r > j {
      assert false;
    }
  }

  /** The value `interp1d` returns at index `x`: `slope*(x - x_lo) + y_lo`. */
  function InterpAt(s: seq<Sample>, v: seq<nat>, x: nat): Sample
    requires StrictlyIncreasing(v) && |v| >= 2
    requires forall k :: 0 <= k < |v| ==> v[k] < |s|
  {
    var j0 := SearchSorted(v, x);
    var j := if j0 < 1 then 1 else if j0 > |v| - 1 then |v| - 1 else j0;
    Segment(v[j - 1], s[v[j - 1]], v[j], s[v[j]], x)
  }

  /** The value at `x` on the segment from node `(lo, ylo)` to node `(hi, yhi)`, in IEEE-like arithmetic. */
  function Segment(lo: nat, ylo: Sample, hi: nat, yhi: Sample, x: nat): Sample
    requires lo < hi
  {
    var slope := DivPos(Sub(yhi, ylo), (hi - lo) as real);
    Add(Mul(slope, Fin((x - lo) as real)), ylo)
  }

  /** Interpolation of every index over the nodes the mask selects. */
  function InterpolateWith(s: seq<Sample>, mask: Mask): (r: Result<seq<Sample>, InterpError>)
    ensures r.Err? <==> |Nodes(s, mask)| < 2
    ensures r.Ok? ==> |r.value| == |s|
  {
    var v := Nodes(s, mask);
    if |v| < 2 then Err(TooFewNodes)
    else Ok(seq(|s|, x requires 0 <= x < |s| => InterpAt(s, v, x)))
  }

  /**
   * utils/helpers.py `interpolate_nans`: only NaN is masked out. On a series
   * without infinities it is the intended finite-mask interpolation.
   */
  function InterpolateNans(s: seq<Sample>): (r: Result<seq<Sample>, InterpError>)
    ensures r.Err? <==> |Nodes(s, NotNaN)| < 2
    ensures r.Ok? ==> |r.value| == |s|
    ensures (forall i :: 0 <= i < |s| ==> !s[i].PosInf? && !s[i].NegInf?) ==> r == InterpolateNonFinite(s)
  {
    var r := InterpolateWith(s, NotNaN);
    if forall i :: 0 <= i < |s| ==> !s[i].PosInf? && !s[i].NegInf? then
      NodesAgree(s, s);
      r
    else r
  }

  /** `interpolate_nans` as evidently intended: every non-finite value is replaced. */
  function InterpolateNonFinite(s: seq<Sample>): Result<seq<Sample>, InterpError>
  {
    InterpolateWith(s, Finite)
  }

  /** The straight line through `(lo, ylo)` and `(hi, yhi)`, evaluated at `x`. */
  function Line(lo: nat, ylo: real, hi: nat, yhi: real, x: nat): real
    requires lo < hi
  {
    ylo + (yhi - ylo) * ((x as real - lo as real) / (hi as real - lo as real))
  }

  /** The line passes through both of its defining points. */
  lemma LineThroughEnds(lo: nat, ylo: real, hi: nat, yhi: real)
    requires lo < hi
    ensures Line(lo, ylo, hi, yhi, lo) == ylo
    ensures Line(lo, ylo, hi, yhi, hi) == yhi
  {
    var d := hi as real - lo as real;
    assert d / d == 1.0;
  }

  /** Every node the mask selects holds a finite value. */
  predicate NodesFinite(s: seq<Sample>, mask: Mask)
  {
    forall i :: 0 <= i < |s| && Keeps(mask, s[i]) ==> s[i].Fin?
  }

  lemma LineArith(lo: nat, ylo: real, hi: nat, yhi: real, x: nat)
    requires lo < hi
    ensures (yhi - ylo) / (hi - lo) as real * (x - lo) as real + ylo == Line(lo, ylo, hi, yhi, x)
  {
    var d := (hi - lo) as real;
    calc {
      (yhi - ylo) / d * (x - lo) as real;
      (yhi - ylo) * ((x - lo) as real / d);
      (yhi - ylo) * ((x as real - lo as real) / (hi as real - lo as real));
    }
  }

  /** The interpolated value at `x` from finite nodes `v[j-1]`, `v[j]`. */
  lemma InterpAtFinite(s: seq<Sample>, v: seq<nat>, x: nat, j: nat)
    requires StrictlyIncreasing(v) && |v| >= 2
    requires forall k :: 0 <= k < |v| ==> v[k] < |s|
    requires 1 <= j < |v|
    requires j == (var j0 := SearchSorted(v, x); if j0 < 1 then 1 else if j0 > |v| - 1 then |v| - 1 else j0)
    requires s[v[j - 1]].Fin? && s[v[j]].Fin?
    ensures InterpAt(s, v, x) == Fin(Line(v[j - 1], s[v[j - 1]].v, v[j], s[v[j]].v, x))
  {
    assert v[j - 1] < v[j];
    SegmentFinite(v[j - 1], s[v[j - 1]].v, v[j], s[v[j]].v, x);
  }

  /** Between finite nodes the segment is the exact straight line. */
  lemma SegmentFinite(lo: nat, ylo: real, hi: nat, yhi: real, x: nat)
    requires lo < hi
    ensures Segment(lo, Fin(ylo), hi, Fin(yhi), x) == Fin(Line(lo, ylo, hi, yhi, x))
  {
    var slope := DivPos(Sub(Fin(yhi), Fin(ylo)), (hi - lo) as real);
    assert slope == Fin((yhi - ylo) / (hi - lo) as real);
    assert Mul(slope, Fin((x - lo) as real)) == Fin((yhi - ylo) / (hi - lo) as real * (x - lo) as real);
    LineArith(lo, ylo, hi, yhi, x);
  }

  /** Each entry of a successful interpolation is `InterpAt` over the node list. */
  lemma InterpolateEntry(s: seq<Sample>, mask: Mask, x: nat)
    requires x < |s| && InterpolateWith(s, mask).Ok?
    ensures |Nodes(s, mask)| >= 2
    ensures InterpolateWith(s, mask).value[x] == InterpAt(s, Nodes(s, mask), x)
  {
  }

  /** Where a node sits in the node list. */
  lemma {:induction false} NodePosition(s: seq<Sample>, mask: Mask, i: nat) returns (k: nat)
    requires i < |s| && Keeps(mask, s[i])
    ensures k < |Nodes(s, mask)| && Nodes(s, mask)[k] == i
    decreases |s|
  {
    var init := s[..|s| - 1];
    var front := Nodes(init, mask);
    if i == |s| - 1 {
      k := |front|;
    } else {
      assert init[i] == s[i];
      k := NodePosition(init, mask, i);
      assert Nodes(s, mask)[k] == front[k];
    }
  }

  lemma AtLeastTwoNodes(s: seq<Sample>, mask: Mask)
    requires |s| >= 2 && Keeps(mask, s[0]) && Keeps(mask, s[1])
    ensures |Nodes(s, mask)| >= 2
  {
    var k0 := NodePosition(s, mask, 0);
    var k1 := NodePosition(s, mask, 1);
    assert k0 != k1;
  }

  /** Over finite samples that are all nodes, interpolation changes nothing. */
  lemma InterpolateUnchanged(s: seq<Sample>, mask: Mask)
    requires |s| >= 2
    requires forall i :: 0 <= i < |s| ==> s[i].Fin? && Keeps(mask, s[i])
    ensures InterpolateWith(s, mask) == Ok(s)
  {
    AtLeastTwoNodes(s, mask);
    var r := InterpolateWith(s, mask);
    assert NodesFinite(s, mask);
    forall i | 0 <= i < |s|
      ensures r.value[i] == s[i]
    {
      InterpolateKeepsNodes(s, mask, i);
    }
    assert r.value == s;
  }

  /**
   * The value at `x` comes from the segment `j` that the clamped search
   * picks; between finite nodes it is the straight line through them.
   */
  lemma InterpolateOnSegment(s: seq<Sample>, mask: Mask, x: nat, j: nat)
    requires x < |s| && 1 <= j < |Nodes(s, mask)|
    requires var v := Nodes(s, mask); var j0 := SearchSorted(v, x);
      j == if j0 < 1 then 1 else if j0 > |v| - 1 then |v| - 1 else j0
    requires s[Nodes(s, mask)[j - 1]].Fin? && s[Nodes(s, mask)[j]].Fin?
    ensures InterpolateWith(s, mask).Ok?
    ensures var v := Nodes(s, mask);
      InterpolateWith(s, mask).value[x] == Fin(Line(v[j - 1], s[v[j - 1]].v, v[j], s[v[j]].v, x))
  {
    InterpAtFinite(s, Nodes(s, mask), x, j);
    InterpolateEntry(s, mask, x);
  }

  /**
   * A gap between two consecutive nodes (`lo < x < hi`, nothing selected
   * strictly between) is filled from the line through those two nodes.
   */
  lemma {:induction false} InterpolateFillsGap(s: seq<Sample>, mask: Mask, lo: nat, x: nat, hi: nat)
    requires lo < x < hi < |s|
    requires Keeps(mask, s[lo]) && Keeps(mask, s[hi])
    requires forall i :: lo < i < hi ==> !Keeps(mask, s[i])
    requires s[lo].Fin? && s[hi].Fin?
    ensures InterpolateWith(s, mask).Ok?
    ensures InterpolateWith(s, mask).value[x] == Fin(Line(lo, s[lo].v, hi, s[hi].v, x))
  {
    var j := GapNodes(s, mask, lo, x, hi);
    InterpolateOnSegment(s, mask, x, j);
  }

  /** Two nodes with nothing selected between them are consecutive, and the search lands between them. */
  lemma GapNodes(s: seq<Sample>, mask: Mask, lo: nat, x: nat, hi: nat) returns (j: nat)
    requires lo < x < hi < |s|
    requires Keeps(mask, s[lo]) && Keeps(mask, s[hi])
    requires forall i :: lo < i < hi ==> !Keeps(mask, s[i])
    ensures var v := Nodes(s, mask);
      1 <= j < |v| && v[j - 1] == lo && v[j] == hi && SearchSorted(v, x) == j
  {
    var v := Nodes(s, mask);
    var k := NodePosition(s, mask, lo);
    var m := NodePosition(s, mask, hi);
    assert k < m;
    assert Keeps(mask, s[v[k + 1]]) && v[k] < v[k + 1] <= v[m];
    SearchSortedAt(v, x, k + 1);
    j := k + 1;
  }

  /**
   * Before the first node, the value comes from the line through the first
   * two nodes.
   */
  lemma {:induction false} InterpolateExtrapolatesFront(s: seq<Sample>, mask: Mask, x: nat, a: nat, b: nat)
    requires x < a < b < |s|
    requires Keeps(mask, s[a]) && Keeps(mask, s[b])
    requires forall i :: 0 <= i < b && i != a ==> !Keeps(mask, s[i])
    requires s[a].Fin? && s[b].Fin?
    ensures InterpolateWith(s, mask).Ok?
    ensures InterpolateWith(s, mask).value[x] == Fin(Line(a, s[a].v, b, s[b].v, x))
  {
    FirstTwoNodes(s, mask, x, a, b);
    InterpolateOnSegment(s, mask, x, 1);
  }

  lemma FirstTwoNodes(s: seq<Sample>, mask: Mask, x: nat, a: nat, b: nat)
    requires x < a < b < |s|
    requires Keeps(mask, s[a]) && Keeps(mask, s[b])
    requires forall i :: 0 <= i < b && i != a ==> !Keeps(mask, s[i])
    ensures var v := Nodes(s, mask);
      |v| >= 2 && v[0] == a && v[1] == b && SearchSorted(v, x) == 0
  {
    var v := Nodes(s, mask);
    var k := NodePosition(s, mask, a);
    var m := NodePosition(s, mask, b);
    assert v[0] <= v[k] && Keeps(mask, s[v[0]]);
    assert v[0] == a;
    assert m >= 1 && v[1] <= v[m] && Keeps(mask, s[v[1]]);
    SearchSortedAt(v, x, 0);
  }

  /**
   * After the last node, the value comes from the line through the last two
   * nodes.
   */
  lemma {:induction false} InterpolateExtrapolatesBack(s: seq<Sample>, mask: Mask, a: nat, b: nat, x: nat)
    requires a < b < x < |s|
    requires Keeps(mask, s[a]) && Keeps(mask, s[b])
    requires forall i :: a < i < |s| && i != b ==> !Keeps(mask, s[i])
    requires s[a].Fin? && s[b].Fin?
    ensures InterpolateWith(s, mask).Ok?
    ensures InterpolateWith(s, mask).value[x] == Fin(Line(a, s[a].v, b, s[b].v, x))
  {
    var n := LastTwoNodes(s, mask, a, b, x);
    InterpolateOnSegment(s, mask, x, n - 1);
  }

  lemma LastTwoNodes(s: seq<Sample>, mask: Mask, a: nat, b: nat, x: nat) returns (n: nat)
    requires a < b < x < |s|
    requires Keeps(mask, s[a]) && Keeps(mask, s[b])
    requires forall i :: a < i < |s| && i != b ==> !Keeps(mask, s[i])
    ensures var v := Nodes(s, mask);
      n == |v| >= 2 && v[n - 1] == b && v[n - 2] == a && SearchSorted(v, x) == n
  {
    var v := Nodes(s, mask);
    var k := NodePosition(s, mask, a);
    var m := NodePosition(s, mask, b);
    n := |v|;
    var last := n - 1;
    assert v[m] <= v[last] && Keeps(mask, s[v[last]]);
    assert k < m <= last;
    assert v[k] <= v[last - 1] && Keeps(mask, s[v[last - 1]]);
    SearchSortedAt(v, x, n);
  }

  /** With finite nodes, every node keeps its value. */
  lemma {:induction false} InterpolateKeepsNodes(s: seq<Sample>, mask: Mask, i: nat)
    requires i < |s| && Keeps(mask, s[i])
    requires NodesFinite(s, mask)
    requires InterpolateWith(s, mask).Ok?
    ensures InterpolateWith(s, mask).value[i] == s[i]
  {
    var v := Nodes(s, mask);
    var k := NodePosition(s, mask, i);
    InterpolateEntry(s, mask, i);
    SearchSortedAt(v, i, k);
    if k == 0 {
      InterpAtFinite(s, v, i, 1);
      LineThroughEnds(v[0], s[v[0]].v, v[1], s[v[1]].v);
    } else {
      InterpAtFinite(s, v, i, k);
      LineThroughEnds(v[k - 1], s[v[k - 1]].v, v[k], s[v[k]].v);
    }
  }

  /** With finite nodes, the result holds no NaN and no infinity. */
  lemma {:induction false} InterpolateAllFinite(s: seq<Sample>, mask: Mask, x: nat)
    requires x < |s|
    requires NodesFinite(s, mask)
    requires InterpolateWith(s, mask).Ok?
    ensures InterpolateWith(s, mask).value[x].Fin?
  {
    var v := Nodes(s, mask);
    var j0 := SearchSorted(v, x);
    var j := if j0 < 1 then 1 else if j0 > |v| - 1 then |v| - 1 else j0;
    InterpAtFinite(s, v, x, j);
    InterpolateEntry(s, mask, x);
  }

  /** The corrected interpolation: nodes are exactly the finite samples, so nothing non-finite survives. */
  lemma InterpolateNonFiniteCleans(s: seq<Sample>)
    requires InterpolateNonFinite(s).Ok?
    ensures forall x :: 0 <= x < |s| ==> InterpolateNonFinite(s).value[x].Fin?
    ensures forall i :: 0 <= i < |s| && s[i].Fin? ==> InterpolateNonFinite(s).value[i] == s[i]
  {
    forall x | 0 <= x < |s|
      ensures InterpolateNonFinite(s).value[x].Fin?
    {
      InterpolateAllFinite(s, Finite, x);
    }
    forall i | 0 <= i < |s| && s[i].Fin?
      ensures InterpolateNonFinite(s).value[i] == s[i]
    {
      InterpolateKeepsNodes(s, Finite, i);
    }
  }

  /**
   * `interpolate_nans` as written: an infinity counts as a node, and the
   * node next to it becomes NaN (`-inf + inf`), so the output is not
   * NaN-free.
   */
  lemma InterpolateNansKeepsInfinity()
    ensures InterpolateNans([Fin(0.0), PosInf, Fin(1.0)]).Ok?
    ensures InterpolateNans([Fin(0.0), PosInf, Fin(1.0)]).value[2].NaN?
    ensures InterpolateNans([Fin(0.0), PosInf, Fin(1.0)]).value[1].PosInf?
    ensures InterpolateNans([Fin(0.0), PosInf, Fin(1.0)]).value[0].NaN?
  {
    var s := [Fin(0.0), PosInf, Fin(1.0)];
    ExampleNodes();
    var v := Nodes(s, NotNaN);
    SearchSortedAt(v, 2, 2);
    SearchSortedAt(v, 1, 1);
    assert v[1] == 1 && v[2] == 2 && v[0] == 0;
    assert s[1] == PosInf && s[2] == Fin(1.0) && s[0] == Fin(0.0);
    var down := DivPos(Sub(Fin(1.0), PosInf), 1.0);
    assert down == NegInf;
    assert InterpAt(s, v, 2) == Add(Mul(down, Fin(1.0)), PosInf);
    var up := DivPos(Sub(PosInf, Fin(0.0)), 1.0);
    assert up == PosInf;
    assert InterpAt(s, v, 1) == Add(Mul(up, Fin(1.0)), Fin(0.0));
    SearchSortedAt(v, 0, 0);
    assert InterpAt(s, v, 0) == Add(Mul(up, Fin(0.0)), Fin(0.0));
    var r := InterpolateNans(s);
    assert r.value[0] == InterpAt(s, v, 0);
    assert r.value[2] == InterpAt(s, v, 2);
    assert r.value[1] == InterpAt(s, v, 1);
  }

  lemma ExampleNodes()
    ensures Nodes([Fin(0.0), PosInf, Fin(1.0)], NotNaN) == [0, 1, 2]
  {
    var s, s1, s2 := [Fin(0.0), PosInf, Fin(1.0)], [Fin(0.0)], [Fin(0.0), PosInf];
    assert s1[..0] == [];
    assert Nodes(s1, NotNaN) == [0];
    assert s2[..1] == s1;
    assert Nodes(s2, NotNaN) == [0, 1];
    assert s[..2] == s2;
  }

  datatype SpikeError = NoSamplePoints   // `np.interp` with no finite sample points

  /**
   * utils/helpers.py `remove_spikes`: a copy with every infinity replaced
   * by NaN. The interpolated array it also builds is discarded (only its
   * failure on an input without finite values shows); `threshold` is unused.
   */
  function RemoveSpikes(s: seq<Sample>): (r: Result<seq<Sample>, SpikeError>)
    ensures r.Err? <==> forall i :: 0 <= i < |s| ==> !s[i].Fin?
    ensures r.Ok? ==> |r.value| == |s|
    ensures r.Ok? ==> forall i :: 0 <= i < |s| ==> !r.value[i].IsInf()
    ensures r.Ok? ==> forall i :: 0 <= i < |s| ==> (r.value[i] == s[i] <==> !s[i].IsInf())
    ensures r.Ok? ==> forall i :: 0 <= i < |s| ==> (r.value[i].NaN? <==> !s[i].Fin?)
  {
    if forall i :: 0 <= i < |s| ==> !s[i].Fin? then Err(NoSamplePoints)
    else Ok(seq(|s|, i requires 0 <= i < |s| => if s[i].IsInf() then NaN else s[i]))
  }

  /**
   * Removing spikes and then interpolating NaNs is the corrected
   * interpolation: after `remove_spikes` the NaN mask and the finite mask
   * select the same nodes.
   */
  lemma {:induction false} RemoveSpikesThenInterpolate(s: seq<Sample>)
    requires RemoveSpikes(s).Ok?
    ensures InterpolateNans(RemoveSpikes(s).value) == InterpolateNonFinite(s)
  {
    var c := RemoveSpikes(s).value;
    NodesAgree(s, c);
    var v := Nodes(s, Finite);
    if |v| >= 2 {
      assert forall k :: 0 <= k < |v| ==> c[v[k]] == s[v[k]];
      assert InterpolateNans(c).value == InterpolateNonFinite(s).value;
    }
  }

  lemma {:induction false} NodesAgree(s: seq<Sample>, c: seq<Sample>)
    requires |c| == |s|
    requires forall i :: 0 <= i < |s| ==> (c[i].NaN? <==> !s[i].Fin?)
    requires forall i :: 0 <= i < |s| && s[i].Fin? ==> c[i] == s[i]
    ensures Nodes(c, NotNaN) == Nodes(s, Finite)
  {
    if |s| > 0 {
      NodesAgree(s[..|s| - 1], c[..|c| - 1]);
    }
  }
}

=== FILE: lookup.dfy ===
/**
 * Read-outs of the secant series: the older script's `find_nearest`
 * (the row whose strain in percent is closest to a target) and the current
 * analyser's `find_coordinat` (the first strain within one unit of the
 * first target, in priority order, that has one).
 */
module Lookup {
  import opened Numerics
  import opened Wrappers

  /** `np.argmin`: the first index holding the minimum. */
  function ArgMin(xs: seq<real>): (k: nat)
    requires |xs| > 0
    ensures k < |xs|
    ensures forall i :: 0 <= i < |xs| ==> xs[k] <= xs[i]
    ensures forall i :: 0 <= i < k ==> xs[k] < xs[i]
  {
    if |xs| == 1 then 0
    else
      var k := ArgMin(xs[..|xs| - 1]);
      if xs[|xs| - 1] < xs[k] then |xs| - 1 else k
  }

  /** Strain in percent, as `find_nearest` compares it: `Eps1 * 100`. */
  function Percent(eps: real): real
  {
    eps * 100.0
  }

  /** `|Eps1 * 100 - value|` for every row. */
  function Distances(eps: seq<real>, value: real): (d: seq<real>)
    ensures |d| == |eps|
    ensures forall i :: 0 <= i < |d| ==> d[i] == Abs(Percent(eps[i]) - value)
  {
    seq(|eps|, i requires 0 <= i < |eps| => Abs(Percent(eps[i]) - value))
  }

  /** One row read out: pressure, strain in percent, modulus. */
  datatype Reading = Reading(pr: real, strainPercent: real, modulus: real)

  /**
   * `find_nearest(value)`: the row whose strain in percent is closest to
   * `value`, the earliest on a tie. The three arrays are columns of one
   * table, so they have one length; on no rows `argmin` raises.
   */
  function FindNearest(pr: seq<real>, e: seq<real>, eps: seq<real>, value: real): (r: Option<Reading>)
    requires |pr| == |e| == |eps|
    ensures r.None? <==> |eps| == 0
    ensures r.Some? ==> exists k :: 0 <= k < |eps| && NearestAt(pr, e, eps, value, k, r.value)
  {
    if |eps| == 0 then None
    else
      var d := Distances(eps, value);
      var k := ArgMin(d);
      assert NearestAt(pr, e, eps, value, k, Reading(pr[k], Percent(eps[k]), e[k])) by {
        assert forall i :: 0 <= i < |eps| ==> d[i] == Abs(Percent(eps[i]) - value);
      }
      Some(Reading(pr[k], Percent(eps[k]), e[k]))
  }

  /** Row `k` is the earliest closest row and `reading` is read from it. */
  predicate NearestAt(pr: seq<real>, e: seq<real>, eps: seq<real>, value: real, k: nat, reading: Reading)
    requires |pr| == |e| == |eps| && k < |eps|
  {
    && reading == Reading(pr[k], Percent(eps[k]), e[k])
    && (forall i :: 0 <= i < |eps| ==> Abs(Percent(eps[k]) - value) <= Abs(Percent(eps[i]) - value))
    && (forall i :: 0 <= i < k ==> Abs(Percent(eps[k]) - value) < Abs(Percent(eps[i]) - value))
  }

  /** When some row hits the target exactly, the read-out strain is the target itself. */
  lemma FindNearestExact(pr: seq<real>, e: seq<real>, eps: seq<real>, value: real, j: nat)
    requires |pr| == |e| == |eps| && j < |eps|
    requires Percent(eps[j]) == value
    ensures FindNearest(pr, e, eps, value).Some?
    ensures FindNearest(pr, e, eps, value).value.strainPercent == value
  {
    var d := Distances(eps, value);
    var k := ArgMin(d);
    assert d[k] <= d[j] == 0.0;
  }

  /** `|a - b| < 1`: the tolerance `find_coordinat` accepts. */
  predicate Close(strain: real, target: real)
  {
    Abs(strain - target) < 1.0
  }

  /** The first index at or after `lo` whose strain is close to `target`. */
  function FirstClose(strain: seq<real>, target: real, lo: nat): (r: Option<nat>)
    ensures r.Some? ==> lo <= r.value < |strain| && Close(strain[r.value], target)
    ensures r.Some? ==> forall j :: lo <= j < r.value ==> !Close(strain[j], target)
    ensures r.None? ==> forall j :: lo <= j < |strain| ==> !Close(strain[j], target)
    decreases |strain| - lo
  {
    if lo >= |strain| then None
    else if Close(strain[lo], target) then Some(lo)
    else FirstClose(strain, target, lo + 1)
  }

  /**
   * Row `j` is the first row close to target `t`, and no earlier target has
   * any close row.
   */
  predicate FirstHit(targets: seq<real>, strain: seq<real>, t: nat, j: nat)
  {
    && t < |targets| && j < |strain| && Close(strain[j], targets[t])
    && (forall i :: 0 <= i < j ==> !Close(strain[i], targets[t]))
    && (forall u, i :: 0 <= u < t && 0 <= i < |strain| ==> !Close(strain[i], targets[u]))
  }

  /**
   * The (target, row) pair `find_coordinat` settles on: the first target,
   * in list order, with a close strain, and the first such row.
   */
  function Locate(targets: seq<real>, strain: seq<real>): (r: Option<(nat, nat)>)
    ensures r.Some? ==> r.value.0 < |targets| && r.value.1 < |strain|
    ensures r.Some? ==> Close(strain[r.value.1], targets[r.value.0])
    ensures r.Some? ==> forall j :: 0 <= j < r.value.1 ==> !Close(strain[j], targets[r.value.0])
    ensures r.Some? ==> forall t, j :: 0 <= t < r.value.0 && 0 <= j < |strain| ==> !Close(strain[j], targets[t])
    ensures r.None? <==> forall t, j :: 0 <= t < |targets| && 0 <= j < |strain| ==> !Close(strain[j], targets[t])
  {
    if |targets| == 0 then None
    else
      match FirstClose(strain, targets[0], 0)
      case Some(j) => Some((0, j))
      case None =>
        match Locate(targets[1..], strain)
        case Some(p) =>
          assert targets[1..][p.0] == targets[p.0 + 1];
          Some((p.0 + 1, p.1))
        case None =>
          assert forall t :: 1 <= t < |targets| ==> targets[t] == targets[1..][t - 1];
          None
  }

  /** `Locate` picks exactly the first hit. */
  lemma LocateIsFirstHit(targets: seq<real>, strain: seq<real>, t: nat, j: nat)
    requires FirstHit(targets, strain, t, j)
    ensures Locate(targets, strain) == Some((t, j))
  {
    var r := Locate(targets, strain);
    assert r.Some?;
    var (t0, j0) := r.value;
    assert Close(strain[j0], targets[t0]) && Close(strain[j], targets[t]);
  }

  /**
   * `find_coordinat(target_values, stress, strain)`: `(stress[j], strain[j])`
   * for the row `Locate` picks, or nothing (Python's implicit `None`).
   * Both arrays are the current analyser's `Pr` and `Eps1`, one length.
   */
  function FindCoordinate(targets: seq<real>, stress: seq<real>, strain: seq<real>): (r: Option<(real, real)>)
    requires |stress| == |strain|
    ensures r.None? <==> forall t, j :: 0 <= t < |targets| && 0 <= j < |strain| ==> !Close(strain[j], targets[t])
    ensures forall t: nat, j: nat :: FirstHit(targets, strain, t, j) ==> r == Some((stress[j], strain[j]))
  {
    assert forall t: nat, j: nat :: FirstHit(targets, strain, t, j) ==> Locate(targets, strain) == Some((t, j)) by {
      forall t: nat, j: nat | FirstHit(targets, strain, t, j)
        ensures Locate(targets, strain) == Some((t, j))
      {
        LocateIsFirstHit(targets, strain, t, j);
      }
    }
    match Locate(targets, strain)
    case None => None
    case Some(p) => Some((stress[p.1], strain[p.1]))
  }

  /**
   * Target order is a priority: when the first target has a close strain,
   * the answer is the first row close to it, whatever the later targets are.
   */
  lemma FindCoordinatePriority(targets: seq<real>, stress: seq<real>, strain: seq<real>, j: nat)
    requires |stress| == |strain| && |targets| > 0 && j < |strain|
    requires Close(strain[j], targets[0]) && forall i :: 0 <= i < j ==> !Close(strain[i], targets[0])
    ensures FindCoordinate(targets, stress, strain) == Some((stress[j], strain[j]))
  {
  }
}

=== FILE: numerics.dfy ===
/**
 * Numeric primitives of the analyser. Every double is modelled as an exact
 * real; the values numpy can produce beyond the reals (NaN and the two
 * infinities) are the extra constructors of `Sample`. Rounding is not
 * modelled.
 */
module Numerics {

  /** One double-precision sample: a finite value or an IEEE non-finite value. */
  datatype Sample = Fin(v: real) | NaN | PosInf | NegInf {
    predicate IsInf() { PosInf? || NegInf? }
  }

  /** The infinity whose sign is that of `x` (`x != 0`). */
  function InfOfSign(x: real): (r: Sample)
    requires x != 0.0
    ensures r.IsInf()
    ensures r.PosInf? <==> x > 0.0
  {
    if x > 0.0 then PosInf else NegInf
  }

  function Neg(a: Sample): (r: Sample)
    ensures r.NaN? <==> a.NaN?
    ensures r.IsInf() <==> a.IsInf()
  {
    match a
    case Fin(x) => Fin(-x)
    case NaN => NaN
    case PosInf => NegInf
    case NegInf => PosInf
  }

  /** IEEE addition: NaN absorbs, opposite infinities give NaN. */
  function Add(a: Sample, b: Sample): (r: Sample)
    ensures a.Fin? && b.Fin? ==> r.Fin?
    ensures a.NaN? || b.NaN? ==> r.NaN?
    ensures (a.PosInf? && b.NegInf?) || (a.NegInf? && b.PosInf?) ==> r.NaN?
  {
    match (a, b)
    case (Fin(x), Fin(y)) => Fin(x + y)
    case (NaN, _) => NaN
    case (_, NaN) => NaN
    case (PosInf, NegInf) => NaN
    case (NegInf, PosInf) => NaN
    case (PosInf, _) => PosInf
    case (NegInf, _) => NegInf
    case (_, PosInf) => PosInf
    case (_, NegInf) => NegInf
  }

  function Sub(a: Sample, b: Sample): Sample
  {
    Add(a, Neg(b))
  }

  /** IEEE multiplication: NaN absorbs, an infinity times zero gives NaN. */
  function Mul(a: Sample, b: Sample): (r: Sample)
    ensures a.Fin? && b.Fin? ==> r.Fin?
    ensures a.NaN? || b.NaN? ==> r.NaN?
    ensures (a.IsInf() && b == Fin(0.0)) || (a == Fin(0.0) && b.IsInf()) ==> r.NaN?
  {
    match (a, b)
    case (Fin(x), Fin(y)) => Fin(x * y)
    case (NaN, _) => NaN
    case (_, NaN) => NaN
    case (Fin(x), _) => if x == 0.0 then NaN else if (x > 0.0) == b.PosInf? then PosInf else NegInf
    case (_, Fin(y)) => if y == 0.0 then NaN else if (y > 0.0) == a.PosInf? then PosInf else NegInf
    case (_, _) => if a == b then PosInf else NegInf
  }

  /** A sample divided by a positive finite number. */
  function DivPos(a: Sample, d: real): (r: Sample)
    requires d > 0.0
    ensures r.Fin? <==> a.Fin?
    ensures r.Fin? ==> r.v * d == a.v
    ensures !a.Fin? ==> r == a
  {
    match a
    case Fin(x) => Fin(x / d)
    case _ => a
  }

  /** numpy float division of two finite values, with division by zero not raising. */
  function Div(x: real, y: real): (r: Sample)
    ensures y != 0.0 ==> r.Fin? && r.v * y == x
    ensures y == 0.0 && x != 0.0 ==> r.IsInf()
    ensures y == 0.0 && x == 0.0 ==> r.NaN?
  {
    if y != 0.0 then Fin(x / y)
    else if x == 0.0 then NaN
    else InfOfSign(x)
  }

  /** `math.ceil` / `np.ceil` on an exact real. */
  function Ceil(x: real): (r: int)
    ensures (r - 1) as real < x <= r as real
  {
    -((-x).Floor)
  }

  /**
   * Python slicing `s[lo:hi]` for non-negative bounds: both bounds are
   * clipped to the length, and an inverted range is empty.
   */
  function PySlice<T>(s: seq<T>, lo: nat, hi: nat): (r: seq<T>)
    ensures lo <= hi <= |s| ==> r == s[lo..hi]
    ensures |r| == if lo < hi && lo < |s| then (if hi < |s| then hi else |s|) - lo else 0
    ensures forall i :: 0 <= i < |r| ==> r[i] == s[lo + i]
  {
    var a := if lo < |s| then lo else |s|;
    var b := if hi < |s| then hi else |s|;
    if a < b then s[a..b] else []
  }

  /** numpy `xs - c`. */
  function Shift(xs: seq<real>, c: real): (r: seq<real>)
    ensures |r| == |xs|
    ensures forall i :: 0 <= i < |r| ==> r[i] + c == xs[i]
  {
    seq(|xs|, i requires 0 <= i < |xs| => xs[i] - c)
  }

  /** numpy `xs * c`. */
  function Scale(xs: seq<real>, c: real): (r: seq<real>)
    ensures |r| == |xs|
    ensures forall i :: 0 <= i < |r| ==> r[i] == xs[i] * c
  {
    seq(|xs|, i requires 0 <= i < |xs| => xs[i] * c)
  }

  /** `np.min` of a non-empty sequence. */
  function Min(xs: seq<real>): (m: real)
    requires |xs| > 0
    ensures forall i :: 0 <= i < |xs| ==> m <= xs[i]
  {
    MinFrom(xs, 0)
  }

  /** The minimum of `xs[k..]`, recursing on the index rather than on slices. */
  function MinFrom(xs: seq<real>, k: nat): (m: real)
    requires k < |xs|
    ensures forall i :: k <= i < |xs| ==> m <= xs[i]
    decreases |xs| - k
  {
    if k == |xs| - 1 then xs[k]
    else
      var rest := MinFrom(xs, k + 1);
      if xs[k] <= rest then xs[k] else rest
  }

  /** The minimum is one of the elements. */
  lemma MinAttained(xs: seq<real>) returns (k: nat)
    requires |xs| > 0
    ensures k < |xs| && xs[k] == Min(xs)
  {
    k := MinFromAttained(xs, 0);
  }

  lemma {:induction false} MinFromAttained(xs: seq<real>, j: nat) returns (k: nat)
    requires j < |xs|
    ensures j <= k < |xs| && xs[k] == MinFrom(xs, j)
    decreases |xs| - j
  {
    if j == |xs| - 1 || xs[j] <= MinFrom(xs, j + 1) {
      k := j;
    } else {
      k := MinFromAttained(xs, j + 1);
    }
  }

  /** Absolute value of a real. */
  function Abs(x: real): (r: real)
    ensures r >= 0.0
    ensures r == x || r == -x
  {
    if x < 0.0 then -x else x
  }

  predicate StrictlyIncreasing(s: seq<nat>)
  {
    forall i, j :: 0 <= i < j < |s| ==> s[i] < s[j]
  }

  predicate NonDecreasing(s: seq<nat>)
  {
    forall i, j :: 0 <= i < j < |s| ==> s[i] <= s[j]
  }
}

=== FILE: protocol.dfy ===
/**
 * The report's date line and protocol number, both derived from an ISO
 * `YYYY-MM-DD` date string: Python's `str.split('-')`, `int()` on the month
 * and Python list indexing into the genitive month names.
 */
module Protocol {
  import opened Wrappers

  /** `s.split(sep)`: the maximal separator-free pieces, empty pieces included. */
  function Split(s: string, sep: char): (parts: seq<string>)
    ensures |parts| >= 1
    ensures forall i :: 0 <= i < |parts| ==> sep !in parts[i]
    ensures Join(parts, sep) == s
  {
    if |s| == 0 then [""]
    else
      var rest := Split(s[1..], sep);
      if s[0] == sep then [""] + rest
      else
        assert Join([[s[0]] + rest[0]] + rest[1..], sep) == [s[0]] + Join(rest, sep) by {
          JoinConsHead(s[0], rest, sep);
        }
        [[s[0]] + rest[0]] + rest[1..]
  }

  /** `sep.join(parts)`. */
  function Join(parts: seq<string>, sep: char): string
    requires |parts| >= 1
    decreases |parts|
  {
    if |parts| == 1 then parts[0] else parts[0] + [sep] + Join(parts[1..], sep)
  }

  lemma JoinConsHead(c: char, parts: seq<string>, sep: char)
    requires |parts| >= 1
    ensures Join([[c] + parts[0]] + parts[1..], sep) == [c] + Join(parts, sep)
  {
    var q := [[c] + parts[0]] + parts[1..];
    assert q[1..] == parts[1..];
  }

  lemma JoinThree(a: string, b: string, c: string, sep: char)
    ensures Join([a, b, c], sep) == a + [sep] + b + [sep] + c
  {
    assert [a, b, c][1..] == [b, c];
    assert [b, c][1..] == [c];
    assert Join([b, c], sep) == b + [sep] + c;
    assert a + [sep] + (b + [sep] + c) == a + [sep] + b + [sep] + c;
  }

  /** Splitting a join of separator-free pieces gives the pieces back. */
  lemma {:induction false} SplitJoin(parts: seq<string>, sep: char)
    requires |parts| >= 1
    requires forall i :: 0 <= i < |parts| ==> sep !in parts[i]
    ensures Split(Join(parts, sep), sep) == parts
    decreases |parts|, |parts[0]|
  {
    var s := Join(parts, sep);
    if |parts[0]| == 0 {
      if |parts| == 1 {
      } else {
        SplitJoin(parts[1..], sep);
        assert s == [sep] + Join(parts[1..], sep);
        assert s[1..] == Join(parts[1..], sep);
        assert [""] + parts[1..] == parts;
      }
    } else {
      var c := parts[0][0];
      var shorter := [parts[0][1..]] + parts[1..];
      assert shorter[1..] == parts[1..];
      assert forall i :: 0 <= i < |shorter| ==> sep !in shorter[i] by {
        forall i | 0 <= i < |shorter|
          ensures sep !in shorter[i]
        {
          if i == 0 {
            assert forall x :: x in parts[0][1..] ==> x in parts[0];
          } else {
            assert shorter[i] == parts[i];
          }
        }
      }
      SplitJoin(shorter, sep);
      assert [c] + parts[0][1..] == parts[0];
      assert [[c] + shorter[0]] + shorter[1..] == parts;
      JoinConsHead(c, shorter, sep);
      assert s == [c] + Join(shorter, sep);
      assert s[1..] == Join(shorter, sep);
      assert c != sep by {
        assert c in parts[0];
      }
    }
  }

  /** The three fields of a `YYYY-MM-DD` string: unpacking into three names requires exactly three pieces. */
  datatype DateFields = DateFields(year: string, month: string, day: string)

  datatype DateError =
    | WrongFieldCount   // `year, month, day = ...split('-')` with another number of pieces
    | NotAnInteger      // `int(month)` rejects the text
    | NoSuchMonth       // `months[int(month) - 1]` is out of range

  function Fields(date: string): (r: Result<DateFields, DateError>)
    ensures r.Err? <==> |Split(date, '-')| != 3
    ensures r.Ok? ==> Join([r.value.year, r.value.month, r.value.day], '-') == date
    ensures r.Ok? ==> '-' !in r.value.year && '-' !in r.value.month && '-' !in r.value.day
  {
    var parts := Split(date, '-');
    if |parts| != 3 then Err(WrongFieldCount)
    else
      assert [parts[0], parts[1], parts[2]] == parts;
      Ok(DateFields(parts[0], parts[1], parts[2]))
  }

  /** The value of an ASCII digit. */
  function DigitValue(c: char): nat
    requires '0' <= c <= '9'
  {
    (c as int - '0' as int) as nat
  }

  predicate AllDigits(s: string)
  {
    forall i :: 0 <= i < |s| ==> '0' <= s[i] <= '9'
  }

  /** The decimal value of a digit string. */
  function DigitsValue(s: string): nat
    requires AllDigits(s)
  {
    if |s| == 0 then 0 else DigitsValue(s[..|s| - 1]) * 10 + DigitValue(s[|s| - 1])
  }

  /**
   * `int(text)` for the texts a `-`-free field can hold: an optional `+`
   * followed by one or more ASCII digits.
   */
  function ParseInt(text: string): (r: Option<nat>)
    ensures r.Some? <==> (|text| >= 1 && AllDigits(text)) || (|text| >= 2 && text[0] == '+' && AllDigits(text[1..]))
  {
    if |text| >= 1 && AllDigits(text) then Some(DigitsValue(text))
    else if |text| >= 2 && text[0] == '+' && AllDigits(text[1..]) then Some(DigitsValue(text[1..]))
    else None
  }

  /** The genitive month names of the report. */
  const MonthNames: seq<string> := ["января", "февраля", "марта", "апреля", "мая", "июня",
    "июля", "августа", "сентября", "октября", "ноября", "декабря"]

  /**
   * `months[m - 1]` with Python's indexing: `-12 <= m - 1 < 12` is valid
   * and a negative index counts from the end.
   */
  function MonthName(m: int): (r: Option<string>)
    ensures r.Some? <==> -11 <= m <= 12
    ensures 1 <= m <= 12 ==> r == Some(MonthNames[m - 1])
    ensures -11 <= m <= 0 ==> r == Some(MonthNames[m + 11])
  {
    var idx := m - 1;
    if 0 <= idx < |MonthNames| then Some(MonthNames[idx])
    else if -|MonthNames| <= idx < 0 then Some(MonthNames[|MonthNames| + idx])
    else None
  }

  /** `transform_date`: `«DD» <month name> YYYY`. */
  function TransformDate(date: string): (r: Result<string, DateError>)
    ensures r.Ok? ==> Fields(date).Ok? && ParseInt(Fields(date).value.month).Some?
    ensures r.Ok? ==> var f := Fields(date).value; var m := ParseInt(f.month).value;
      MonthName(m).Some? && r.value == "«" + f.day + "» " + MonthName(m).value + " " + f.year
    ensures Fields(date).Err? ==> r == Err(WrongFieldCount)
    ensures Fields(date).Ok? && ParseInt(Fields(date).value.month).None? ==> r == Err(NotAnInteger)
    ensures r == Err(NoSuchMonth) <==> (Fields(date).Ok? && ParseInt(Fields(date).value.month).Some?
      && ParseInt(Fields(date).value.month).value > 12)
  {
    match Fields(date)
    case Err(e) => Err(e)
    case Ok(f) =>
      match ParseInt(f.month)
      case None => Err(NotAnInteger)
      case Some(m) =>
        match MonthName(m)
        case None => Err(NoSuchMonth)
        case Some(name) => Ok("«" + f.day + "» " + name + " " + f.year)
  }

  /** The two report templates of the current analyser. */
  datatype Template = Ds | Plain

  /** What the template puts in front of the number. */
  function Prefix(template: Template): string
  {
    if template == Ds then "ДС-" else ""
  }

  /** The number proper: a `0`, the month text, the year, each followed by `-` but the first. */
  function ProtocolTail(month: string, year: string): string
  {
    "0" + month + "-" + year + "-"
  }

  /**
   * `number_protocol`: `ДС-0MM-YYYY-` for the `ДС` template and `0MM-YYYY-`
   * otherwise; the report generator always uses the `ДС` form. Only the
   * field count is checked: the month text is copied as it is.
   */
  function NumberProtocol(date: string, template: Template): (r: Result<string, DateError>)
    ensures r.Err? <==> Fields(date).Err?
    ensures r.Ok? ==> var f := Fields(date).value;
      Split(r.value, '-') == (if template == Ds then ["ДС"] else []) + ["0" + f.month, f.year, ""]
  {
    match Fields(date)
    case Err(e) => Err(e)
    case Ok(f) =>
      NumberProtocolPieces(f, template);
      Ok(Prefix(template) + ProtocolTail(f.month, f.year))
  }

  lemma NumberProtocolPieces(f: DateFields, template: Template)
    requires '-' !in f.year && '-' !in f.month
    ensures Split(Prefix(template) + ProtocolTail(f.month, f.year), '-')
      == (if template == Ds then ["ДС"] else []) + ["0" + f.month, f.year, ""]
  {
    var tail := ProtocolTail(f.month, f.year);
    PlainPieces(f.month, f.year);
    if template == Ds {
      assert '-' !in "ДС";
      SplitAfterWord("ДС", tail, '-');
      assert Prefix(template) == "ДС" + ['-'];
    } else {
      assert Prefix(template) + tail == tail;
    }
  }

  /** A separator-free word and a separator in front add one piece. */
  lemma SplitAfterWord(word: string, t: string, sep: char)
    requires sep !in word
    ensures Split(word + [sep] + t, sep) == [word] + Split(t, sep)
  {
    var p := Split(t, sep);
    var q := [word] + p;
    assert q[1..] == p;
    assert Join(q, sep) == word + [sep] + t;
    forall i | 0 <= i < |q|
      ensures sep !in q[i]
    {
      if i > 0 { assert q[i] == p[i - 1]; }
    }
    SplitJoin(q, sep);
  }

  lemma PlainPieces(month: string, year: string)
    requires '-' !in year && '-' !in month
    ensures Split(ProtocolTail(month, year), '-') == ["0" + month, year, ""]
  {
    var pieces := ["0" + month, year, ""];
    assert '-' !in "0" + month;
    assert forall i :: 0 <= i < |pieces| ==> '-' !in pieces[i];
    JoinThree("0" + month, year, "", '-');
    assert "0" + month + "-" + year + "-" == ("0" + month) + ['-'] + year + ['-'] + "";
    SplitJoin(pieces, '-');
  }

  /** Two-digit zero-padded decimal, as `strftime` writes month and day. */
  function Pad2(n: nat): (s: string)
    requires n < 100
    ensures |s| == 2 && AllDigits(s) && DigitsValue(s) == n
  {
    var s := [('0' as int + n / 10) as char, ('0' as int + n % 10) as char];
    assert DigitValue(s[0]) == n / 10 && DigitValue(s[1]) == n % 10;
    assert DigitsValue(s[..1]) == n / 10 by {
      assert s[..1][..0] == [];
    }
    s
  }

  /** Four-digit zero-padded year, as `strftime('%Y')` writes years 1 to 9999. */
  function Pad4(n: nat): (s: string)
    requires n < 10000
    ensures |s| == 4 && AllDigits(s) && '-' !in s
  {
    Pad2(n / 100) + Pad2(n % 100)
  }

  /**
   * `strftime('%Y-%m-%d')` for four-digit years; how years below 1000 are
   * padded depends on the platform's C library, so they are left out.
   */
  function IsoDate(year: nat, month: nat, day: nat): string
    requires 1000 <= year < 10000 && month < 100 && day < 100
  {
    Pad4(year) + "-" + Pad2(month) + "-" + Pad2(day)
  }

  /**
   * For every calendar date `strftime` produces, the date line names the
   * right month and keeps the day and year as written.
   */
  lemma {:induction false} TransformIsoDate(year: nat, month: nat, day: nat)
    requires 1000 <= year < 10000 && 1 <= month <= 12 && day < 100
    ensures TransformDate(IsoDate(year, month, day)) == Ok("«" + Pad2(day) + "» " + MonthNames[month - 1] + " " + Pad4(year))
  {
    var parts := [Pad4(year), Pad2(month), Pad2(day)];
    assert '-' !in Pad2(month) && '-' !in Pad2(day) by {
      assert AllDigits(Pad2(month)) && AllDigits(Pad2(day));
    }
    JoinThree(Pad4(year), Pad2(month), Pad2(day), '-');
    SplitJoin(parts, '-');
    assert ParseInt(Pad2(month)) == Some(month);
  }

  /** For every `strftime` date the protocol number is `ДС-0MM-YYYY-`. */
  lemma {:induction false} NumberIsoDate(year: nat, month: nat, day: nat)
    requires 1000 <= year < 10000 && month < 100 && day < 100
    ensures NumberProtocol(IsoDate(year, month, day), Ds) == Ok("ДС-0" + Pad2(month) + "-" + Pad4(year) + "-")
  {
    var parts := [Pad4(year), Pad2(month), Pad2(day)];
    assert '-' !in Pad2(month) && '-' !in Pad2(day) by {
      assert AllDigits(Pad2(month)) && AllDigits(Pad2(day));
    }
    JoinThree(Pad4(year), Pad2(month), Pad2(day), '-');
    SplitJoin(parts, '-');
    assert Prefix(Ds) + ProtocolTail(Pad2(month), Pad4(year)) == "ДС-0" + Pad2(month) + "-" + Pad4(year) + "-";
  }

  /** Month `00` does not fail: index `-1` names December. */
  lemma MonthZeroIsDecember(year: nat, day: nat)
    requires 1000 <= year < 10000 && day < 100
    ensures TransformDate(IsoDate(year, 0, day)) == Ok("«" + Pad2(day) + "» декабря " + Pad4(year))
  {
    var parts := [Pad4(year), Pad2(0), Pad2(day)];
    assert '-' !in Pad2(0) && '-' !in Pad2(day) by {
      assert AllDigits(Pad2(0)) && AllDigits(Pad2(day));
    }
    JoinThree(Pad4(year), Pad2(0), Pad2(day), '-');
    SplitJoin(parts, '-');
    assert ParseInt(Pad2(0)) == Some(0);
    assert MonthName(0) == Some("декабря");
    assert "«" + Pad2(day) + "» " + "декабря" + " " + Pad4(year) == "«" + Pad2(day) + "» декабря " + Pad4(year);
  }
}

=== FILE: secant.dfy ===
/**
 * The windowed secant-modulus estimator: one loading cycle cut between two
 * displacement peaks, split into windows of two seconds, a two-point secant
 * per window, then zeroing, warm-up drop, half-select, shift and scaling.
 * Two versions exist: the current analyser (`process_data_`) and the older
 * script (`process_data` / `plot_results`); `Variant` selects between them.
 */
module Secant {
  import opened Numerics
  import opened Wrappers
  import Baseline

  datatype Variant =
    | Current   // views/main_window.py
    | Legacy    // 111.py

  datatype SecantError =
    | TooFewPeaks      // fewer than three displacement peaks: the analysis returns False
    | BadWindowWidth   // a window width <= 0: `len // w` or `np.zeros(n)` raises
    | NoWindowsLeft    // the older script indexes `Pr[0]` of an empty array

  /** Peaks needed before a cycle is analysed. */
  const MinPeaks: nat := 3

  /** Windows dropped as instrument warm-up. */
  const WarmupWindows: nat := 3

  /** Scale factors of the reported units. */
  const MegaScale: real := 1000000.0
  const PercentScale: real := 100.0
  const Micro: real := 0.000001

  /** The parallel arrays `Pr`, `E1`, `Eps1`. */
  datatype Series = Series(pr: seq<real>, e: seq<real>, eps: seq<real>) {
    predicate Aligned() { |pr| == |e| == |eps| }
    function Length(): nat requires Aligned() { |pr| }
  }

  /**
   * The peak that closes the analysed cycle. The older script picks the
   * fourth peak when there are four, else the third; the current analyser
   * computes the same choice and then overrides it with the second peak.
   */
  function CycleIndex(v: Variant, peakCount: nat): (ci: nat)
    requires peakCount >= MinPeaks
    ensures 1 <= ci < peakCount
    ensures v.Current? ==> ci == 1
    ensures v.Legacy? ==> (ci == 3 <==> peakCount >= 4) && (ci == 2 <==> peakCount == 3)
  {
    var chosen := if peakCount >= 4 then 3 else 2;
    match v
    case Current => 1
    case Legacy => chosen
  }

  /** Window width in samples for two seconds of signal: `ceil(2*sr)` now, `2*ceil(sr)` in the older script. */
  function WindowWidth(v: Variant, sr: real): (w: int)
    ensures v.Current? ==> (w - 1) as real < 2.0 * sr <= w as real
    ensures v.Legacy? ==> w % 2 == 0 && (w / 2 - 1) as real < sr <= (w / 2) as real
  {
    match v
    case Current => Ceil(2.0 * sr)
    case Legacy => 2 * Ceil(sr)
  }

  /** Both widths are at least one window sample for a positive sample rate. */
  lemma WindowWidthPositive(v: Variant, sr: real)
    requires sr > 0.0
    ensures WindowWidth(v, sr) >= 1
  {
  }

  /**
   * `F[Start:Finish+1]` with `Finish = peaks[ci]` and
   * `Start = peaks[ci] - (peaks[ci] - peaks[ci-1]) + 1`: the samples after
   * the previous peak up to and including the chosen one.
   */
  function CycleSlice(xs: seq<real>, peaks: seq<nat>, ci: nat): (r: seq<real>)
    requires StrictlyIncreasing(peaks) && 1 <= ci < |peaks|
    requires forall k :: 0 <= k < |peaks| ==> peaks[k] < |xs|
    ensures |r| == peaks[ci] - peaks[ci - 1]
    ensures forall i :: 0 <= i < |r| ==> r[i] == xs[peaks[ci - 1] + 1 + i]
    ensures r[|r| - 1] == xs[peaks[ci]]
  {
    var cycleLength := peaks[ci] - peaks[ci - 1];
    var start := peaks[ci] - cycleLength + 1;
    var finish := peaks[ci];
    PySlice(xs, start, finish + 1)
  }

  /** First and last index of window `i`: `idx1 = i*w`, `idx2 = min((i+1)*w - 1, len - 1)`. */
  function WindowFirst(i: nat, w: nat): nat
  {
    i * w
  }

  function WindowLast(i: nat, w: nat, len: nat): int
  {
    var idx2 := (i + 1) * w - 1;
    if idx2 >= len then len - 1 else idx2
  }

  /**
   * For `n = len // w` windows, every window lies inside the slice, the
   * clamp never fires, and each window ends just before the next one starts.
   */
  lemma {:induction false} WindowBounds(i: nat, w: nat, len: nat)
    requires w >= 1 && i < len / w
    ensures WindowFirst(i, w) <= WindowLast(i, w, len) < len
    ensures WindowLast(i, w, len) == (i + 1) * w - 1
    ensures WindowLast(i, w, len) + 1 == WindowFirst(i + 1, w)
  {
    var n := len / w;
    MulMono(i + 1, n, w);
    assert n * w <= len;
    assert (i + 1) * w == i * w + w;
  }

  /** Windows are ordered: a later window starts and ends no earlier than an earlier one. */
  lemma {:induction false} WindowsOrdered(i: nat, j: nat, w: nat, len: nat)
    requires w >= 1 && i <= j < len / w
    ensures WindowFirst(i, w) <= WindowFirst(j, w)
    ensures WindowLast(i, w, len) <= WindowLast(j, w, len)
  {
    WindowBounds(i, w, len);
    WindowBounds(j, w, len);
    MulMono(i, j, w);
    MulMono(i + 1, j + 1, w);
  }

  lemma MulMono(a: nat, b: nat, w: nat)
    requires a <= b
    ensures a * w <= b * w
  {
    var d := b - a;
    assert b * w == a * w + d * w;
  }

  /** The per-window `Pr`, `E1` and `Eps1`. */
  function WindowPr(f1: seq<real>, a: nat, b: nat, area: real): real
    requires a < |f1| && b < |f1| && area != 0.0
  {
    (f1[a] + f1[b]) / 2.0 / area * Micro
  }

  function WindowModulus(f1: seq<real>, s1: seq<real>, a: nat, b: nat, area: real, height: real): real
    requires a < |f1| && b < |f1| && |s1| == |f1| && area != 0.0 && height != 0.0
  {
    var deltaF := f1[b] - f1[a];
    var deltaS := s1[b] - s1[a];
    if deltaS != 0.0 then (deltaF / area * Micro) / (deltaS / height) else 0.0
  }

  function WindowStrain(s1: seq<real>, a: nat, b: nat, height: real): real
    requires a < |s1| && b < |s1| && height != 0.0
  {
    (s1[a] + s1[b]) / 2.0 / height
  }

  /** The `(Pr, E1, Eps1)` of window `i`. */
  function WindowAt(f1: seq<real>, s1: seq<real>, w: nat, area: real, height: real, i: nat): (real, real, real)
    requires w >= 1 && |f1| == |s1| && area != 0.0 && height != 0.0 && i < |f1| / w
  {
    WindowBounds(i, w, |f1|);
    var a := WindowFirst(i, w);
    var b := WindowLast(i, w, |f1|);
    (WindowPr(f1, a, b, area), WindowModulus(f1, s1, a, b, area, height), WindowStrain(s1, a, b, height))
  }

  /** The windowing loop: `n = len // w` windows of two-point secants. */
  function Windows(f1: seq<real>, s1: seq<real>, w: nat, area: real, height: real): (r: Series)
    requires w >= 1 && |f1| == |s1| && area != 0.0 && height != 0.0
    ensures r.Aligned() && r.Length() == |f1| / w
  {
    var n := |f1| / w;
    Series(
      seq(n, i requires 0 <= i < n => WindowAt(f1, s1, w, area, height, i).0),
      seq(n, i requires 0 <= i < n => WindowAt(f1, s1, w, area, height, i).1),
      seq(n, i requires 0 <= i < n => WindowAt(f1, s1, w, area, height, i).2))
  }

  /** Entry `i` of the three window arrays is window `i`'s secant. */
  lemma WindowEntry(f1: seq<real>, s1: seq<real>, w: nat, area: real, height: real, i: nat)
    requires w >= 1 && |f1| == |s1| && area != 0.0 && height != 0.0 && i < |f1| / w
    ensures WindowFirst(i, w) <= WindowLast(i, w, |f1|) < |f1|
    ensures var r := Windows(f1, s1, w, area, height);
      var a := WindowFirst(i, w);
      var b := WindowLast(i, w, |f1|);
      && r.pr[i] == WindowPr(f1, a, b, area)
      && r.e[i] == WindowModulus(f1, s1, a, b, area, height)
      && r.eps[i] == WindowStrain(s1, a, b, height)
  {
    WindowBounds(i, w, |f1|);
  }

  /** Displacement is the same at both ends of a window, or differs between them. */
  predicate Flat(s1: seq<real>, a: int, b: int)
  {
    0 <= a < |s1| && 0 <= b < |s1| && s1[a] == s1[b]
  }

  predicate Moves(s1: seq<real>, a: int, b: int)
  {
    0 <= a < |s1| && 0 <= b < |s1| && s1[a] != s1[b]
  }

  /** A window whose displacement does not change contributes zero stiffness. */
  lemma ZeroStiffnessWindow(f1: seq<real>, s1: seq<real>, w: nat, area: real, height: real, i: nat)
    requires w >= 1 && |f1| == |s1| && area != 0.0 && height != 0.0 && i < |f1| / w
    requires Flat(s1, WindowFirst(i, w), (i + 1) * w - 1)
    ensures Windows(f1, s1, w, area, height).e[i] == 0.0
  {
    WindowEntry(f1, s1, w, area, height, i);
    var a := WindowFirst(i, w);
    var b := WindowLast(i, w, |f1|);
    assert s1[b] - s1[a] == 0.0;
  }

  /** Sample `a` lies on the ramp `F = c*S`. */
  predicate OnRamp(f1: seq<real>, s1: seq<real>, c: real, a: int)
  {
    0 <= a < |f1| && a < |s1| && f1[a] == c * s1[a]
  }

  /**
   * On a linear force/displacement ramp `F = c*S`, every window whose
   * displacement moves has the same modulus `c*h*1e-6/area`. Only the two
   * samples the secant reads need to lie on the ramp.
   */
  lemma LinearRampModulus(f1: seq<real>, s1: seq<real>, w: nat, area: real, height: real, c: real, i: nat)
    requires w >= 1 && |f1| == |s1| && area != 0.0 && height != 0.0 && i < |f1| / w
    requires OnRamp(f1, s1, c, WindowFirst(i, w)) && OnRamp(f1, s1, c, (i + 1) * w - 1)
    requires Moves(s1, WindowFirst(i, w), (i + 1) * w - 1)
    ensures Windows(f1, s1, w, area, height).e[i] == c * height * Micro / area
  {
    WindowEntry(f1, s1, w, area, height, i);
    var a := WindowFirst(i, w);
    var b := WindowLast(i, w, |f1|);
    assert f1[a] == c * s1[a] && f1[b] == c * s1[b];
    RampSecant(f1[a], f1[b], s1[a], s1[b], area, height, c);
    assert WindowModulus(f1, s1, a, b, area, height) == ((f1[b] - f1[a]) / area * Micro) / ((s1[b] - s1[a]) / height);
  }

  lemma RampSecant(fa: real, fb: real, sa: real, sb: real, area: real, height: real, c: real)
    requires area != 0.0 && height != 0.0 && sa != sb
    requires fa == c * sa && fb == c * sb
    ensures ((fb - fa) / area * Micro) / ((sb - sa) / height) == c * height * Micro / area
  {
    var dS := sb - sa;
    var strain := dS / height;
    var stress := (fb - fa) / area * Micro;
    var k := c * height * Micro / area;
    assert fb - fa == c * dS;
    assert strain * height == dS;
    assert stress * area == c * dS * Micro;
    assert k * area == c * height * Micro;
    assert k * strain * area * height == c * height * Micro * dS;
    assert stress * area * height == c * dS * Micro * height;
    assert k * strain == stress;
  }

  /** With a non-decreasing force over the cycle and a positive area, `Pr` is non-decreasing over the windows. */
  lemma {:induction false} WindowPrOrdered(f1: seq<real>, s1: seq<real>, w: nat, area: real, height: real, i: nat, j: nat)
    requires w >= 1 && |f1| == |s1| && area > 0.0 && height != 0.0
    requires forall p, q :: 0 <= p <= q < |f1| ==> f1[p] <= f1[q]
    requires i <= j < |f1| / w
    ensures Windows(f1, s1, w, area, height).pr[i] <= Windows(f1, s1, w, area, height).pr[j]
  {
    WindowEntry(f1, s1, w, area, height, i);
    WindowEntry(f1, s1, w, area, height, j);
    WindowsOrdered(i, j, w, |f1|);
    var ai, bi := WindowFirst(i, w), WindowLast(i, w, |f1|);
    var aj, bj := WindowFirst(j, w), WindowLast(j, w, |f1|);
    assert f1[ai] <= f1[aj] && f1[bi] <= f1[bj];
    PrMono(f1[ai] + f1[bi], f1[aj] + f1[bj], area);
    assert WindowPr(f1, ai, bi, area) == (f1[ai] + f1[bi]) / 2.0 / area * Micro;
    assert WindowPr(f1, aj, bj, area) == (f1[aj] + f1[bj]) / 2.0 / area * Micro;
  }

  /** The mean-force pressure is monotone in the summed end forces. */
  lemma PrMono(si: real, sj: real, area: real)
    requires si <= sj && area > 0.0
    ensures si / 2.0 / area * Micro <= sj / 2.0 / area * Micro
  {
    DivMono(si, sj, 2.0 * area);
    assert si / 2.0 / area == si / (2.0 * area);
    assert sj / 2.0 / area == sj / (2.0 * area);
  }

  lemma DivMono(a: real, b: real, d: real)
    requires a <= b && d > 0.0
    ensures a / d * Micro <= b / d * Micro
  {
    var q := (b - a) / d;
    assert q * d == b - a;
    assert q >= 0.0;
    assert b / d == a / d + q;
  }

  /** `xs[k:]` with Python's clipping. */
  function Drop(xs: seq<real>, k: nat): (r: seq<real>)
    ensures |r| == if k <= |xs| then |xs| - k else 0
    ensures forall i :: 0 <= i < |r| ==> r[i] == xs[k + i]
  {
    PySlice(xs, k, |xs|)
  }

  /** `Pr = Pr - Pr[0]` when `Pr` is not empty. */
  function ZeroFirst(xs: seq<real>): (r: seq<real>)
    ensures |r| == |xs|
    ensures |xs| > 0 ==> r[0] == 0.0 && forall i :: 0 <= i < |xs| ==> r[i] == xs[i] - xs[0]
    ensures |xs| == 0 ==> r == xs
  {
    if |xs| > 0 then Shift(xs, xs[0]) else xs
  }

  /** Entries left after the warm-up drop and the half cut, out of `n` windows. */
  function KeptLength(n: nat): nat
  {
    var m := if n >= WarmupWindows then n - WarmupWindows else 0;
    m - m / 2
  }

  /** Index into the window arrays of the first kept entry: three warm-up windows plus half the rest. */
  function HalfOffset(n: nat): (off: nat)
    ensures n <= WarmupWindows ==> off == WarmupWindows
    ensures n > WarmupWindows ==> off == WarmupWindows + (n - WarmupWindows) / 2 && off < n
  {
    var m := if n >= WarmupWindows then n - WarmupWindows else 0;
    WarmupWindows + m / 2
  }

  /** `x[3:]` then `x[len(x)//2:]`: the second half of the windows after the warm-up. */
  function KeepSecondHalf(xs: seq<real>): (r: seq<real>)
    ensures |r| == KeptLength(|xs|)
    ensures forall i :: 0 <= i < |r| ==> r[i] == xs[HalfOffset(|xs|) + i]
  {
    var rest := Drop(xs, WarmupWindows);
    Drop(rest, |rest| / 2)
  }

  /** The kept part is never more than half of what is left after the warm-up, rounded up. */
  lemma KeptHalf(n: nat)
    ensures n > WarmupWindows ==> KeptLength(n) >= 1 && 2 * KeptLength(n) <= n - WarmupWindows + 1
    ensures HalfOffset(n) + KeptLength(n) == if n >= WarmupWindows then n else WarmupWindows
  {
  }

  /** What the kept pressures are shifted by: their minimum when there are more than two, else nothing. */
  function PressureFloor(pr: seq<real>): real
  {
    if |pr| > 2 then Min(pr) else 0.0
  }

  /** What the kept strains are re-zeroed from: the first entry when there are more than two, else nothing. */
  function StrainOrigin(eps: seq<real>): real
  {
    if |eps| > 2 then eps[0] else 0.0
  }

  /**
   * The tail of the current analyser's post-processing, on the kept arrays:
   * with more than two entries `Pr` is shifted to minimum zero and `Eps1`
   * re-zeroed; then `E1` and `Pr` are scaled by 1e6 and `Eps1` to percent.
   */
  function Finish(pr: seq<real>, e: seq<real>, eps: seq<real>): (r: Series)
    requires |pr| == |e| == |eps|
    ensures r.Aligned() && r.Length() == |pr|
    ensures forall i :: 0 <= i < |pr| ==>
      && r.pr[i] == (pr[i] - PressureFloor(pr)) * MegaScale
      && r.e[i] == e[i] * MegaScale
      && r.eps[i] == (eps[i] - StrainOrigin(eps)) * PercentScale
  {
    if |pr| > 2 then
      Series(Scale(Shift(pr, Min(pr)), MegaScale), Scale(e, MegaScale), Scale(Shift(eps, eps[0]), PercentScale))
    else
      Series(Scale(pr, MegaScale), Scale(e, MegaScale), Scale(eps, PercentScale))
  }

  /** With more than two entries, pressure has minimum zero and strain starts at zero. */
  lemma FinishNormalised(pr: seq<real>, e: seq<real>, eps: seq<real>)
    requires |pr| == |e| == |eps| && |pr| > 2
    ensures var r := Finish(pr, e, eps);
      && r.eps[0] == 0.0
      && (forall i :: 0 <= i < r.Length() ==> r.pr[i] >= 0.0)
      && (exists i :: 0 <= i < r.Length() && r.pr[i] == 0.0)
  {
    var k := MinAttained(pr);
    assert Finish(pr, e, eps).pr[k] == 0.0;
  }

  /** Shifting by the minimum leaves a non-negative series that touches zero. */
  lemma ShiftedToMinimum(xs: seq<real>)
    requires |xs| > 0
    ensures var r := Shift(xs, Min(xs));
      && (forall i :: 0 <= i < |r| ==> r[i] >= 0.0)
      && (exists i :: 0 <= i < |r| && r[i] == 0.0)
  {
    var k := MinAttained(xs);
    assert Shift(xs, Min(xs))[k] == 0.0;
  }

  /**
   * Post-processing of the current analyser, in source order: zero `Pr`,
   * drop three warm-up windows and keep the second half of every array,
   * then `Finish`.
   */
  function CurrentPost(win: Series): (r: Series)
    requires win.Aligned()
    ensures r.Aligned() && r.Length() == KeptLength(win.Length())
  {
    Finish(KeepSecondHalf(ZeroFirst(win.pr)), KeepSecondHalf(win.e), KeepSecondHalf(win.eps))
  }

  /** The reported modulus is the kept windows' modulus in MPa: scaled, never shifted. */
  lemma CurrentPostModulus(win: Series, i: nat)
    requires win.Aligned() && i < KeptLength(win.Length())
    ensures CurrentPost(win).e[i] == win.e[HalfOffset(win.Length()) + i] * MegaScale
  {
    var pr := KeepSecondHalf(ZeroFirst(win.pr));
    var e := KeepSecondHalf(win.e);
    var eps := KeepSecondHalf(win.eps);
    assert CurrentPost(win) == Finish(pr, e, eps);
    assert e[i] == win.e[HalfOffset(win.Length()) + i];
    assert Finish(pr, e, eps).e[i] == e[i] * MegaScale;
  }

  /** One reported entry of the current analyser, in terms of the window it comes from. */
  lemma CurrentPostEntry(win: Series, i: nat)
    requires win.Aligned() && i < KeptLength(win.Length())
    ensures var r := CurrentPost(win); var off := HalfOffset(win.Length());
      var pr := KeepSecondHalf(ZeroFirst(win.pr)); var eps := KeepSecondHalf(win.eps);
      && r.pr[i] == (win.pr[off + i] - win.pr[0] - PressureFloor(pr)) * MegaScale
      && r.eps[i] == (win.eps[off + i] - StrainOrigin(eps)) * PercentScale
  {
    var off := HalfOffset(win.Length());
    var pr := KeepSecondHalf(ZeroFirst(win.pr));
    var eps := KeepSecondHalf(win.eps);
    assert pr[i] == win.pr[off + i] - win.pr[0];
    assert eps[i] == win.eps[off + i];
  }

  /**
   * Shifts do not change shape: the differences between reported pressures
   * and strains are those of the kept windows, scaled to kPa and percent.
   */
  lemma CurrentPostShape(win: Series, i: nat, j: nat)
    requires win.Aligned() && i < KeptLength(win.Length()) && j < KeptLength(win.Length())
    ensures var r := CurrentPost(win); var off := HalfOffset(win.Length());
      && r.pr[i] - r.pr[j] == (win.pr[off + i] - win.pr[off + j]) * MegaScale
      && r.eps[i] - r.eps[j] == (win.eps[off + i] - win.eps[off + j]) * PercentScale
  {
    CurrentPostEntry(win, i);
    CurrentPostEntry(win, j);
  }

  /** With more than two kept entries, pressure starts at its minimum zero and strain at zero. */
  lemma CurrentPostNormalised(win: Series)
    requires win.Aligned() && KeptLength(win.Length()) > 2
    ensures var r := CurrentPost(win);
      && r.eps[0] == 0.0
      && (forall i :: 0 <= i < r.Length() ==> r.pr[i] >= 0.0)
      && (exists i :: 0 <= i < r.Length() && r.pr[i] == 0.0)
  {
    FinishNormalised(KeepSecondHalf(ZeroFirst(win.pr)), KeepSecondHalf(win.e), KeepSecondHalf(win.eps));
  }

  /**
   * With at most two kept entries nothing is shifted: pressure stays relative
   * to the first window and strain is absolute.
   */
  lemma CurrentPostShort(win: Series, i: nat)
    requires win.Aligned() && i < KeptLength(win.Length()) <= 2
    ensures var r := CurrentPost(win); var off := HalfOffset(win.Length());
      && r.pr[i] == (win.pr[off + i] - win.pr[0]) * MegaScale
      && r.eps[i] == win.eps[off + i] * PercentScale
  {
    CurrentPostEntry(win, i);
  }

  /** `Pr` of `plot_results` before its final shift: re-zeroed, scaled to kPa, second half only. */
  function PlotScaled(pr: seq<real>): (r: seq<real>)
    requires |pr| > 0
    ensures |r| == |pr| - |pr| / 2
    ensures forall i :: 0 <= i < |r| ==> r[i] == (pr[|pr| / 2 + i] - pr[0]) * MegaScale
  {
    var scaled := Scale(Shift(pr, pr[0]), MegaScale);
    Drop(scaled, |scaled| / 2)
  }

  /**
   * `plot_results` of the older script: `Pr` is zeroed again and scaled to
   * kPa, all three arrays are cut at half their length, `Pr` is shifted to
   * minimum zero, `Eps1` is scaled to percent and `E1` is not scaled.
   * Indexing `Pr[0]` of an empty array raises.
   */
  function PlotResults(pr: seq<real>, e: seq<real>, eps: seq<real>): (r: Result<Series, SecantError>)
    requires |pr| == |e| == |eps|
    ensures r.Err? <==> |pr| == 0
    ensures r.Ok? ==> r.value.Aligned() && r.value.Length() == |pr| - |pr| / 2
    ensures r.Ok? ==> forall i :: 0 <= i < r.value.Length() ==>
      && r.value.pr[i] == (pr[|pr| / 2 + i] - pr[0]) * MegaScale - Min(PlotScaled(pr))
      && r.value.e[i] == e[|pr| / 2 + i]
      && r.value.eps[i] == eps[|pr| / 2 + i] * PercentScale
  {
    if |pr| == 0 then Err(NoWindowsLeft)
    else
      var x := PlotScaled(pr);
      var half := |pr| / 2;
      Ok(Series(Shift(x, Min(x)), Drop(e, half), Scale(Drop(eps, half), PercentScale)))
  }

  /** `plot_results` keeps the pressure shape of the second half. */
  lemma PlotResultsShape(pr: seq<real>, e: seq<real>, eps: seq<real>, i: nat, j: nat)
    requires |pr| == |e| == |eps| && i < |pr| - |pr| / 2 && j < |pr| - |pr| / 2
    ensures var r := PlotResults(pr, e, eps).value;
      r.pr[i] - r.pr[j] == (pr[|pr| / 2 + i] - pr[|pr| / 2 + j]) * MegaScale
  {
    var r := PlotResults(pr, e, eps).value;
    assert r.pr[i] == (pr[|pr| / 2 + i] - pr[0]) * MegaScale - Min(PlotScaled(pr));
    assert r.pr[j] == (pr[|pr| / 2 + j] - pr[0]) * MegaScale - Min(PlotScaled(pr));
  }

  /** `plot_results` reports pressure from minimum zero. */
  lemma PlotResultsFloor(pr: seq<real>, e: seq<real>, eps: seq<real>)
    requires |pr| == |e| == |eps| && |pr| > 0
    ensures var r := PlotResults(pr, e, eps).value;
      && (forall i :: 0 <= i < r.Length() ==> r.pr[i] >= 0.0)
      && (exists k :: 0 <= k < r.Length() && r.pr[k] == 0.0)
  {
    var x := PlotScaled(pr);
    assert PlotResults(pr, e, eps).value.pr == Shift(x, Min(x));
    ShiftedToMinimum(x);
  }

  /** What the older script hands to `plot_results`: `Pr` zeroed, then all three arrays from window 3 on. */
  function LegacyInput(win: Series): (r: Series)
    requires win.Aligned() && win.Length() > WarmupWindows
    ensures r.Aligned() && r.Length() == win.Length() - WarmupWindows
    ensures forall k :: 0 <= k < r.Length() ==>
      && r.pr[k] == win.pr[WarmupWindows + k] - win.pr[0]
      && r.e[k] == win.e[WarmupWindows + k]
      && r.eps[k] == win.eps[WarmupWindows + k]
  {
    Series(Drop(ZeroFirst(win.pr), WarmupWindows), Drop(win.e, WarmupWindows), Drop(win.eps, WarmupWindows))
  }

  /**
   * The older script's post-processing: zero `Pr`, drop the warm-up windows
   * from all three arrays, then `plot_results`.
   */
  function LegacyPost(win: Series): (r: Result<Series, SecantError>)
    requires win.Aligned()
    ensures r.Err? <==> win.Length() <= WarmupWindows
    ensures r.Ok? ==> r.value.Aligned() && r.value.Length() == KeptLength(win.Length())
    ensures r.Ok? ==> forall i :: 0 <= i < r.value.Length() ==>
      && r.value.e[i] == win.e[HalfOffset(win.Length()) + i]
      && r.value.eps[i] == win.eps[HalfOffset(win.Length()) + i] * PercentScale
  {
    if win.Length() <= WarmupWindows then Err(NoWindowsLeft)
    else
      var input := LegacyInput(win);
      assert HalfOffset(win.Length()) == WarmupWindows + input.Length() / 2;
      PlotResults(input.pr, input.e, input.eps)
  }

  /**
   * The older script re-zeroes `Pr` against the first window and then
   * `plot_results` re-zeroes it against its own first entry and shifts it:
   * both cancel, so the reported pressures keep the kept windows' shape.
   */
  lemma LegacyPostShape(win: Series, i: nat, j: nat)
    requires win.Aligned() && LegacyPost(win).Ok?
    requires i < LegacyPost(win).value.Length() && j < LegacyPost(win).value.Length()
    ensures var r := LegacyPost(win).value;
      var off := HalfOffset(win.Length());
      r.pr[i] - r.pr[j] == (win.pr[off + i] - win.pr[off + j]) * MegaScale
  {
    var input := LegacyInput(win);
    var half := input.Length() / 2;
    assert LegacyPost(win) == PlotResults(input.pr, input.e, input.eps);
    assert HalfOffset(win.Length()) == WarmupWindows + half;
    PlotResultsShape(input.pr, input.e, input.eps, i, j);
    assert input.pr[half + i] == win.pr[WarmupWindows + half + i] - win.pr[0];
    assert input.pr[half + j] == win.pr[WarmupWindows + half + j] - win.pr[0];
  }

  /** The older script reports pressure from minimum zero. */
  lemma LegacyPostFloor(win: Series)
    requires win.Aligned() && LegacyPost(win).Ok?
    ensures var r := LegacyPost(win).value;
      && (forall i :: 0 <= i < r.Length() ==> r.pr[i] >= 0.0)
      && (exists k :: 0 <= k < r.Length() && r.pr[k] == 0.0)
  {
    var input := LegacyInput(win);
    PlotResultsFloor(input.pr, input.e, input.eps);
  }

  /**
   * The windows of the analysed cycle: the force and displacement slices
   * between the chosen peak and the one before it, cut into windows of the
   * variant's width.
   */
  function CycleWindows(v: Variant, based: Baseline.Based, peaks: seq<nat>, area: real, height: real): (r: Series)
    requires based.rec.Aligned()
    requires StrictlyIncreasing(peaks) && |peaks| >= MinPeaks
    requires forall k :: 0 <= k < |peaks| ==> peaks[k] < based.rec.Length()
    requires WindowWidth(v, based.sampleRate) >= 1 && area != 0.0 && height != 0.0
    ensures var ci := CycleIndex(v, |peaks|);
      r.Aligned() && r.Length() == (peaks[ci] - peaks[ci - 1]) / WindowWidth(v, based.sampleRate)
  {
    var ci := CycleIndex(v, |peaks|);
    forall k | 0 <= k < |peaks|
      ensures peaks[k] < |based.rec.force|
    {
      assert peaks[k] < based.rec.Length();
    }
    var f1 := CycleSlice(based.rec.force, peaks, ci);
    var s1 := CycleSlice(based.rec.displacement, peaks, ci);
    Windows(f1, s1, WindowWidth(v, based.sampleRate), area, height)
  }

  /**
   * The whole estimator from the baseline-corrected table and the
   * displacement peaks (scipy `find_peaks` output, strictly increasing).
   */
  function Estimate(v: Variant, based: Baseline.Based, peaks: seq<nat>, area: real, height: real)
    : (r: Result<Series, SecantError>)
    requires based.rec.Aligned()
    requires StrictlyIncreasing(peaks)
    requires forall k :: 0 <= k < |peaks| ==> peaks[k] < based.rec.Length()
    requires area != 0.0 && height != 0.0
    ensures |peaks| < MinPeaks ==> r == Err(TooFewPeaks)
    ensures |peaks| >= MinPeaks ==> (r == Err(BadWindowWidth) <==> WindowWidth(v, based.sampleRate) <= 0)
    ensures |peaks| >= MinPeaks && based.sampleRate > 0.0 && v.Current? ==> r.Ok?
    ensures r.Ok? ==> r.value.Aligned()
    ensures |peaks| >= MinPeaks && WindowWidth(v, based.sampleRate) >= 1 ==>
      var win := CycleWindows(v, based, peaks, area, height);
      && (v.Current? ==> r == Ok(CurrentPost(win)))
      && (v.Legacy? ==> r == LegacyPost(win))
  {
    if |peaks| < MinPeaks then Err(TooFewPeaks)
    else
      var w := WindowWidth(v, based.sampleRate);
      if w <= 0 then Err(BadWindowWidth)
      else
        var win := CycleWindows(v, based, peaks, area, height);
        match v
        case Current => Ok(CurrentPost(win))
        case Legacy => LegacyPost(win)
  }

  /**
   * With `n` windows fitting into the analysed cycle, only the older script
   * can fail past the peak and width checks, exactly when the warm-up leaves
   * no window, and the reported arrays have the kept length of `n`.
   */
  lemma EstimateWindowCount(v: Variant, based: Baseline.Based, peaks: seq<nat>, area: real, height: real)
    requires based.rec.Aligned()
    requires StrictlyIncreasing(peaks) && |peaks| >= MinPeaks
    requires forall k :: 0 <= k < |peaks| ==> peaks[k] < based.rec.Length()
    requires area != 0.0 && height != 0.0 && WindowWidth(v, based.sampleRate) >= 1
    ensures var r := Estimate(v, based, peaks, area, height);
      var n := CycleWindows(v, based, peaks, area, height).Length();
      && (r.Err? <==> v.Legacy? && n <= WarmupWindows)
      && (r.Ok? ==> r.value.Length() == KeptLength(n))
  {
  }

  /** The current analyser cuts the cycle between the first two peaks. */
  lemma CurrentCycleLength(xs: seq<real>, peaks: seq<nat>)
    requires StrictlyIncreasing(peaks) && |peaks| >= MinPeaks
    requires forall k :: 0 <= k < |peaks| ==> peaks[k] < |xs|
    ensures var ci := CycleIndex(Current, |peaks|);
      CycleSlice(xs, peaks, ci) == xs[peaks[0] + 1 .. peaks[1] + 1]
  {
  }
}

=== FILE: static_modulus.dfy ===
/**
 * The static ("GOST") modulus of every loading cycle: within the loading
 * branch of a cycle, the first sustained crossings of 625 N and 8750 N, and
 * the secant `(8750 - 625) / (Δdisplacement * area)` between them.
 */
module StaticModulus {
  import opened Numerics
  import opened Wrappers
  import Baseline
  import Cycles

  /** Load thresholds of the secant (N). */
  const LowLoad: real := 625.0
  const HighLoad: real := 8750.0

  datatype StaticError =
    | MissingLowerPeak       // `lower_p[io]` or `lower_p[io + 1]` is out of range
    | NonIntegerIndex        // a float `lower_p[io]` used as a slice bound
    | NoCrossing(cycle: nat) // a threshold is never crossed; formatting the result then raises

  /**
   * `for i in range(1, len(xs) - 5)`: the first index from 1 whose value
   * and the four after it all exceed `thr`.
   */
  function Crossing(xs: seq<real>, thr: real): (r: Option<nat>)
    ensures r.Some? ==> 1 <= r.value && r.value + 5 < |xs| && Baseline.Sustained(xs, r.value, thr)
    ensures r.Some? ==> forall j :: 1 <= j < r.value ==> !Baseline.Sustained(xs, j, thr)
    ensures r.None? ==> forall j :: 1 <= j < |xs| - 5 ==> !Baseline.Sustained(xs, j, thr)
  {
    Baseline.FirstSustained(xs, thr, 1, |xs| - 5)
  }

  /** The load passes 625 N no later than it passes 8750 N. */
  lemma CrossingsOrdered(xs: seq<real>)
    requires Crossing(xs, HighLoad).Some?
    ensures Crossing(xs, LowLoad).Some?
    ensures Crossing(xs, LowLoad).value <= Crossing(xs, HighLoad).value
  {
    var hi := Crossing(xs, HighLoad).value;
    assert Baseline.Sustained(xs, hi, LowLoad);
  }

  /**
   * The secant modulus of one loading branch `[lo, hi)`: `None` when a
   * threshold is never crossed inside it.
   */
  function BranchModulus(force: seq<real>, displacement: seq<real>, lo: nat, hi: nat, area: real): Option<Sample>
    requires |force| == |displacement|
  {
    var f := PySlice(force, lo, hi);
    var d := PySlice(displacement, lo, hi);
    match (Crossing(f, LowLoad), Crossing(f, HighLoad))
    case (Some(a), Some(b)) => Some(Secant(d[a], d[b], area))
    case _ => None
  }

  /** `(8750 - 625) / (Δdisplacement * area)`. */
  function Secant(lowDisplacement: real, highDisplacement: real, area: real): Sample
  {
    Div(HighLoad - LowLoad, (highDisplacement - lowDisplacement) * area)
  }

  /**
   * With displacement non-decreasing over the branch and a positive area,
   * the static modulus is positive: finite, or infinite when the
   * displacement did not move between the crossings.
   */
  lemma BranchModulusPositive(force: seq<real>, displacement: seq<real>, lo: nat, hi: nat, area: real)
    requires |force| == |displacement| && area > 0.0
    requires forall p, q :: 0 <= p <= q < |displacement| ==> displacement[p] <= displacement[q]
    requires BranchModulus(force, displacement, lo, hi, area).Some?
    ensures var m := BranchModulus(force, displacement, lo, hi, area).value;
      m == PosInf || (m.Fin? && m.v > 0.0)
  {
    var f := PySlice(force, lo, hi);
    var d := PySlice(displacement, lo, hi);
    CrossingsOrdered(f);
    var a := Crossing(f, LowLoad).value;
    var b := Crossing(f, HighLoad).value;
    assert d[a] == displacement[lo + a] && d[b] == displacement[lo + b];
    var delta := d[b] - d[a];
    assert delta >= 0.0;
    if delta > 0.0 {
      PositiveQuotient(HighLoad - LowLoad, delta, area);
    }
  }

  lemma PositiveQuotient(x: real, delta: real, area: real)
    requires x > 0.0 && delta > 0.0 && area > 0.0
    ensures delta * area > 0.0 && x / (delta * area) > 0.0
  {
    var p := delta * area;
    assert p > 0.0;
  }

  /** The branch modulus of every cycle that has a trough to start from. */
  function Branches(force: seq<real>, displacement: seq<real>, starts: seq<nat>, upper: seq<nat>, area: real)
    : (bs: seq<Option<Sample>>)
    requires |force| == |displacement|
    ensures |bs| == if |starts| < |upper| then |starts| else |upper|
    ensures forall c :: 0 <= c < |bs| ==> bs[c] == BranchModulus(force, displacement, starts[c], upper[c], area)
  {
    var n := if |starts| < |upper| then |starts| else |upper|;
    seq(n, c requires 0 <= c < n => BranchModulus(force, displacement, starts[c], upper[c], area))
  }

  /**
   * The `C_stat` loop over `cycles` cycles from cycle `io` on, given the
   * branch results `bs` of the cycles that have a trough: the loop also
   * reads the next trough for every cycle but the last, and the first
   * failure, in cycle order, ends the computation.
   */
  function Collect(bs: seq<Option<Sample>>, cycles: nat, io: nat): (r: Result<seq<Sample>, StaticError>)
    requires io <= cycles
    ensures r.Ok? <==> (io == cycles || cycles <= |bs|) && forall c :: io <= c < cycles && c < |bs| ==> bs[c].Some?
    ensures r.Ok? ==> |r.value| == cycles - io
    ensures r.Ok? ==> forall c :: io <= c < cycles && c < |bs| ==> bs[c] == Some(r.value[c - io])
    ensures r.Err? && r.error.NoCrossing? ==> var c := r.error.cycle;
      && io <= c < cycles && c < |bs| && bs[c].None?
      && forall k :: io <= k < c ==> bs[k].Some?
    decreases cycles - io
  {
    if io == cycles then Ok([])
    else if io >= |bs| then Err(MissingLowerPeak)
    else if io + 1 < cycles && io + 1 >= |bs| then Err(MissingLowerPeak)
    else if bs[io].None? then Err(NoCrossing(io))
    else
      var rest := Collect(bs, cycles, io + 1);
      if rest.Err? then rest
      else
        var all := [bs[io].value] + rest.value;
        forall c | io <= c < cycles && c < |bs|
          ensures bs[c] == Some(all[c - io])
        {
          if c > io {
            assert all[c - io] == rest.value[c - (io + 1)];
          }
        }
        Ok(all)
  }

  /** Cycle `c` has a trough to start from and crosses both thresholds. */
  predicate CycleMeasured(force: seq<real>, displacement: seq<real>, starts: seq<nat>, upper: seq<nat>, area: real, c: nat)
    requires |force| == |displacement| && c < |upper|
  {
    c < |starts| && BranchModulus(force, displacement, starts[c], upper[c], area).Some?
  }

  /**
   * The static modulus of every cycle, each measured on the loading branch
   * from the cycle's own trough (`peaks_lower`, which already starts with 0)
   * to its upper peak.
   */
  function StaticModuli(force: seq<real>, displacement: seq<real>, lower: seq<nat>, upper: seq<nat>, area: real)
    : (r: Result<seq<Sample>, StaticError>)
    requires |force| == |displacement|
    ensures r.Ok? ==> |r.value| == |upper|
    ensures |lower| < |upper| ==> r.Err?
    ensures r.Ok? <==> forall c :: 0 <= c < |upper| ==> CycleMeasured(force, displacement, lower, upper, area, c)
    ensures r.Ok? ==> forall c :: 0 <= c < |upper| ==> BranchModulus(force, displacement, lower[c], upper[c], area) == Some(r.value[c])
    ensures r.Err? && r.error.NoCrossing? ==> var c := r.error.cycle;
      && c < |upper| && !CycleMeasured(force, displacement, lower, upper, area, c)
      && forall k :: 0 <= k < c ==> CycleMeasured(force, displacement, lower, upper, area, k)
  {
    var bs := Branches(force, displacement, lower, upper, area);
    CollectMeasured(force, displacement, lower, upper, area);
    assert |lower| < |upper| ==> !CycleMeasured(force, displacement, lower, upper, area, |lower|);
    Collect(bs, |upper|, 0)
  }

  /** The loop succeeds exactly when every cycle is measured. */
  lemma CollectMeasured(force: seq<real>, displacement: seq<real>, lower: seq<nat>, upper: seq<nat>, area: real)
    requires |force| == |displacement|
    ensures Collect(Branches(force, displacement, lower, upper, area), |upper|, 0).Ok?
      <==> forall c :: 0 <= c < |upper| ==> CycleMeasured(force, displacement, lower, upper, area, c)
  {
    var bs := Branches(force, displacement, lower, upper, area);
    if |lower| < |upper| {
      assert !CycleMeasured(force, displacement, lower, upper, area, |lower|);
      assert |bs| < |upper|;
    } else {
      assert |bs| == |upper|;
      forall c | 0 <= c < |upper|
        ensures CycleMeasured(force, displacement, lower, upper, area, c) <==> bs[c].Some?
      {
        assert bs[c] == BranchModulus(force, displacement, lower[c], upper[c], area);
      }
    }
  }

  /**
   * `C_stat` as written: `lower_p = [0] + peaks_lower`, a second leading
   * zero. When no trough snapped, `peaks_lower` is the float `[0.]` and the
   * inserted 0 keeps that dtype, so the first cycle's slice raises.
   */
  function StaticModuliAsWritten(force: seq<real>, displacement: seq<real>, lower: Cycles.LowerPeaks, upper: seq<nat>, area: real)
    : (r: Result<seq<Sample>, StaticError>)
    requires |force| == |displacement|
    ensures |upper| > 0 && !lower.integral ==> r == Err(NonIntegerIndex)
    ensures lower.integral || |upper| == 0 ==> r == StaticModuli(force, displacement, [0] + lower.index, upper, area)
  {
    if |upper| > 0 && !lower.integral then Err(NonIntegerIndex)
    else Collect(Branches(force, displacement, [0] + lower.index, upper, area), |upper|, 0)
  }

  /**
   * As written, the second cycle is measured from sample 0 again, so
   * whenever the first cycle succeeds the second cycle repeats its value.
   */
  lemma {:induction false} AsWrittenRepeatsFirstCycle(force: seq<real>, displacement: seq<real>, lower: Cycles.LowerPeaks, upper: seq<nat>, area: real)
    requires |force| == |displacement|
    requires |lower.index| >= 1 && lower.index[0] == 0 && |upper| >= 2 && upper[0] <= upper[1]
    requires StaticModuliAsWritten(force, displacement, lower, upper, area).Ok?
    ensures StaticModuliAsWritten(force, displacement, lower, upper, area).value[1]
         == StaticModuliAsWritten(force, displacement, lower, upper, area).value[0]
  {
    var starts := [0] + lower.index;
    assert lower.integral;
    var r := StaticModuli(force, displacement, starts, upper, area);
    assert StaticModuliAsWritten(force, displacement, lower, upper, area) == r;
    assert starts[0] == 0 && starts[1] == 0;
    assert BranchModulus(force, displacement, 0, upper[0], area) == Some(r.value[0]);
    assert BranchModulus(force, displacement, 0, upper[1], area) == Some(r.value[1]);
    LongerBranch(force, displacement, upper[0], upper[1], area);
  }

  /** A branch from sample 0 that is measured keeps its modulus when it is extended. */
  lemma LongerBranch(force: seq<real>, displacement: seq<real>, h0: nat, h1: nat, area: real)
    requires |force| == |displacement| && h0 <= h1
    requires BranchModulus(force, displacement, 0, h0, area).Some?
    ensures BranchModulus(force, displacement, 0, h1, area) == BranchModulus(force, displacement, 0, h0, area)
  {
    var f0 := PySlice(force, 0, h0);
    var f1 := PySlice(force, 0, h1);
    var d0 := PySlice(displacement, 0, h0);
    var d1 := PySlice(displacement, 0, h1);
    assert |f0| <= |f1| && |d0| <= |d1|;
    assert forall i :: 0 <= i < |f0| ==> f0[i] == f1[i];
    assert forall i :: 0 <= i < |d0| ==> d0[i] == d1[i];
    assert f0 == f1[..|f0|];
    PrefixCrossing(f0, f1, LowLoad);
    PrefixCrossing(f0, f1, HighLoad);
    var a := Crossing(f0, LowLoad).value;
    var b := Crossing(f0, HighLoad).value;
    assert Crossing(f1, LowLoad) == Some(a) && Crossing(f1, HighLoad) == Some(b);
    assert d1[a] == d0[a] && d1[b] == d0[b];
    assert BranchModulus(force, displacement, 0, h1, area) == Some(Secant(d1[a], d1[b], area));
    assert BranchModulus(force, displacement, 0, h0, area) == Some(Secant(d0[a], d0[b], area));
  }

  /** A crossing found in a prefix is the crossing of the longer series too. */
  lemma PrefixCrossing(short: seq<real>, long: seq<real>, thr: real)
    requires |short| <= |long| && short == long[..|short|]
    requires Crossing(short, thr).Some?
    ensures Crossing(long, thr) == Crossing(short, thr)
  {
    var c := Crossing(short, thr).value;
    SustainedPrefix(short, long, c, thr);
    forall j | 1 <= j < c
      ensures !Baseline.Sustained(long, j, thr)
    {
      SustainedPrefix(short, long, j, thr);
    }
  }

  /** Whether `j` is a sustained crossing depends only on the five samples from `j`. */
  lemma SustainedPrefix(short: seq<real>, long: seq<real>, j: nat, thr: real)
    requires |short| <= |long| && short == long[..|short|]
    requires j + Baseline.SustainSamples <= |short|
    ensures Baseline.Sustained(long, j, thr) == Baseline.Sustained(short, j, thr)
  {
    assert forall k :: j <= k < j + Baseline.SustainSamples ==> long[k] == short[k];
  }

  /**
   * Corrected, cycle `c` is measured on a prefix of the cycle the overview
   * plots: its branch starts at the cycle's own trough and ends at its
   * upper peak, which lies inside the cycle.
   */
  lemma BranchWithinCycle(force: seq<real>, lower: seq<nat>, upper: seq<nat>, c: nat)
    requires c < |upper| <= |lower|
    requires lower[c] <= upper[c] <= Cycles.CycleEnd(force, lower, upper, c) <= |force|
    ensures Cycles.CycleSlices(force, lower, upper).Ok?
    ensures var cycle := Cycles.CycleSlices(force, lower, upper).value[c];
      upper[c] - lower[c] <= |cycle| && PySlice(force, lower[c], upper[c]) == cycle[..upper[c] - lower[c]]
  {
  }
}

=== FILE: wrappers.dfy ===
/** Failure-carrying result types shared by every module of the model. */
module Wrappers {

  /** A value that may be absent. */
  datatype Option<+T> = None | Some(value: T)

  /** Either a computed value or the error the analyser would raise. */
  datatype Result<+T, +E> = Ok(value: T) | Err(error: E)
}
